=== FILE: README.md ===
# Agri chatbot front end, modelled in Dafny

This project models the logic at the core of the chat front end of a
retrieval-augmented agricultural chatbot. It has three parts:

- **The bot-text cleaner.** `cleanContent` in `MessageBubble.tsx` is an ordered chain of fourteen global
  regular-expression replacements followed by `trim`. It strips markdown markers, replaces special characters and folds
  whitespace. A message bubble shows user text verbatim, and bot text only after it has been cleaned.
  The copy button copies the same text the bubble shows.
- **The send lifecycle.** `handleSend` in `App.tsx`:
  - appends the user's message, then turns the loading flag on;
  - waits for the backend;
  - appends either the answer or a fixed error message;
  - turns the loading flag off in a `finally` block.
- **The input box.** `InputBox.tsx` decides when text is sent: on Enter without Shift, or on a click of
  the send button. It sends nothing while the text is blank or a reply is pending, and clears the box
  after a send.

Modules:

- `Messages`: the `Message` record.
- `JsText`: JavaScript's `\s`, its line terminators and `String.prototype.trim`.
- `Regex`: each pattern of the cleaner, plus JavaScript's leftmost, non-overlapping global replace.
  - `Candidate` says declaratively what the expression can match.
  - `MatchAt` computes the match the engine picks.
  - `MatchAtComplete` ties the two together.
- `RegexFacts`: what a global replace keeps, and which steps can never match.
- `Cleaner`: the three stages of `cleanContent` and their contracts.
- `CleanerFacts`: fixed points and worked examples.
- `Bubble`: display and copy text.
- `Chat`: the application state and `handleSend`.
- `InputBox`: the handlers.
- `Session`: the input box wired to the application. It proves invariants over every sequence of user
  events and backend settlements.

### Behaviour of the code worth knowing

- **Fenced code blocks keep their content.** Inline code (line 20) runs before fences (line 21) and
  pairs the backticks first, so `` "```x```" `` becomes `"x"` (`CleanerFacts.FencedBlockExample`). Line
  21 never matches anything at all (`Cleaner.FencedStepIsDead`).
- **Headings are stripped anywhere.** Line 22 is not anchored to the start of a line, so `"C# is"`
  becomes `"Cis"` (`CleanerFacts.MidLineHeaderExample`).
- **The quote class is ASCII.** The class on line 28 holds only the ASCII `"` and `'`. Its one effect
  is that every `'` becomes `"`; typographic quotes pass through unchanged.
- **Cleaning is not idempotent.** `"#\u200B x"` cleans to `"# x"`, which cleans to `"x"`
  (`CleanerFacts.NotIdempotent`).
- **`handleSend` has no guard of its own.** It does not refuse a call while a reply is pending
  (`Chat.HandleSend` has no precondition on the loading flag). Only the input box refuses, and
  `Session.NoSendWhilePending` proves that this suffices for every send made through the box.

## Model

| member | source | states |
|---|---|---|
| `JsText.Trim` | frontend/src/components/MessageBubble.tsx:47 | The result is the input with only whitespace taken off its ends, and neither end of the result is whitespace |
| `JsText.TrimUnique` | frontend/src/components/MessageBubble.tsx:47 | Any string that is the input minus surrounding whitespace and has no whitespace at its ends is the trim, so trim is fully determined by those two properties |
| `JsText.TrimIdempotent` | frontend/src/components/InputBox.tsx:17 | Trimming a trimmed string changes nothing |
| `JsText.BlankIffAllSpace` | frontend/src/components/InputBox.tsx:15 | `trim` yields the empty string exactly when every character is whitespace |
| `Regex.FindClose` | frontend/src/components/MessageBubble.tsx:18-21 | Finds the nearest closing marker reachable by `.` (or by `[\s\S]`); no closer one exists |
| `Regex.MatchAt` | frontend/src/components/MessageBubble.tsx:18-24 | A match found at a position is one the expression can make there, and its replacement is the capture group or the fixed text |
| `Regex.MatchAtComplete` | frontend/src/components/MessageBubble.tsx:18-24 | Whenever the expression can match at a position, a match is found there: the shortest one for the lazy `*?` patterns, the longest for the greedy ones |
| `Regex.CandidateUnique` | frontend/src/components/MessageBubble.tsx:22-24 | The header, bullet and numbered-item patterns can match in at most one way at a given position |
| `Regex.ReplaceFrom` | frontend/src/components/MessageBubble.tsx:18-46 | A global replace never makes the text longer, including the whitespace patterns that insert `' '` and `'\n\n'` |
| `RegexFacts.ReplaceFromVerbatim` | frontend/src/components/MessageBubble.tsx:18-24 | The scan copies every position where the pattern cannot match, unchanged |
| `RegexFacts.NoMatchIdentity` | frontend/src/components/MessageBubble.tsx:18-24 | A replace whose pattern matches nowhere returns its input |
| `RegexFacts.ReplaceKeepsProse` | frontend/src/components/MessageBubble.tsx:18-24 | A replace deletes none of the characters its pattern treats as content and does not reorder them |
| `RegexFacts.PairedMarkersLeaveOnePerLine` | frontend/src/components/MessageBubble.tsx:19-20 | After the italic or inline-code step, each line holds at most one `*` or one backtick respectively |
| `RegexFacts.FencedCodeFindsNothing` | frontend/src/components/MessageBubble.tsx:21 | With at most one backtick per line, the fenced-block pattern never matches |
| `RegexFacts.SpaceRunLeavesSingleSpaces` | frontend/src/components/MessageBubble.tsx:45 | After line 45, every whitespace character is an ASCII space and no two are adjacent |
| `RegexFacts.BlankLinesFindNothing` | frontend/src/components/MessageBubble.tsx:46 | Without a newline, line 46 changes nothing; after line 45 it is therefore dead |
| `Cleaner.TransliterationShape` | frontend/src/components/MessageBubble.tsx:33-40 | Every table key is non-ASCII and every value is a lower-case ASCII letter that is not itself a key |
| `Cleaner.StripZeroWidth` | frontend/src/components/MessageBubble.tsx:27 | A character occurs in the result exactly when it occurs in the input and is not zero-width |
| `Cleaner.StripZeroWidthCounts` | frontend/src/components/MessageBubble.tsx:27 | Every zero-width character is deleted, and every other character keeps its number of occurrences |
| `Cleaner.StripZeroWidthAppend` | frontend/src/components/MessageBubble.tsx:27 | The deletion works piece by piece, so everything else keeps its order |
| `Cleaner.StraightenQuotes` | frontend/src/components/MessageBubble.tsx:28 | Position by position, each `"` or `'` becomes `"` and every other character stays |
| `Cleaner.QuotesGone` | frontend/src/components/MessageBubble.tsx:28 | No `'` is left, and no character appears that was not in the input, other than `"` |
| `Cleaner.PlainDashes` | frontend/src/components/MessageBubble.tsx:29 | Position by position, each en or em dash becomes one `-` and every other character stays |
| `Cleaner.DashesGone` | frontend/src/components/MessageBubble.tsx:29 | No en or em dash is left, and the only new character is `-` |
| `Cleaner.ExpandEllipsis` | frontend/src/components/MessageBubble.tsx:30 | No ellipsis survives, and a full stop appears exactly when one was there or an ellipsis was |
| `Cleaner.ExpandEllipsisCounts` | frontend/src/components/MessageBubble.tsx:30 | Each ellipsis turns into exactly three full stops, and every other character keeps its count |
| `Cleaner.ExpandEllipsisAppend` | frontend/src/components/MessageBubble.tsx:30 | The expansion works piece by piece, so everything else keeps its order |
| `Cleaner.Transliterate` | frontend/src/components/MessageBubble.tsx:31-42 | Position by position, a table character becomes its listed letter and every other character is kept, non-ASCII ones included |
| `Cleaner.TableGone` | frontend/src/components/MessageBubble.tsx:31-42 | No table key survives, and the only new characters are lower-case ASCII letters |
| `Cleaner.StepKeepsPlainText` | frontend/src/components/MessageBubble.tsx:18-24 | No markdown step deletes or reorders a character that is not a marker, digit, full stop or whitespace |
| `Cleaner.FencedStepIsDead` | frontend/src/components/MessageBubble.tsx:20-21 | Line 21, run after line 20, changes nothing |
| `Cleaner.StripMarkdown` | frontend/src/components/MessageBubble.tsx:18-24 | The markdown stage never lengthens the text and keeps every plain character in order |
| `Cleaner.NormalizeSymbols` | frontend/src/components/MessageBubble.tsx:27-42 | None of the characters that lines 27-42 target survives, and the only new characters are `"`, `-`, `.` and lower-case letters |
| `Cleaner.NormalizeSymbolsAppend` | frontend/src/components/MessageBubble.tsx:27-42 | The symbol stage acts on each character separately: cleaning a concatenation is concatenating the cleaned pieces |
| `Cleaner.SymbolsKeepWords` | frontend/src/components/MessageBubble.tsx:27-42 | Markers, digits, full stops and whitespace never turn into word characters in the symbol stage, so its word output depends only on the input's word characters |
| `Cleaner.SpaceRunFacts` | frontend/src/components/MessageBubble.tsx:45 | After line 45 no newline is left, and the only new character is a space |
| `Cleaner.TrimFacts` | frontend/src/components/MessageBubble.tsx:47 | `trim` keeps single spacing, adds nothing, and removes only whitespace |
| `RegexFacts.SpaceRunIsSqueeze` | frontend/src/components/MessageBubble.tsx:45 | For every text, line 45 equals the reference `Squeeze`: each maximal whitespace run becomes exactly one space and every other character is kept |
| `Cleaner.TidyWhitespace` | frontend/src/components/MessageBubble.tsx:45-47 | The result is the trim of the input with every whitespace run folded to one space (line 46 adds nothing), so it is single-spaced and trimmed, and keeps every non-space character in order |
| `Cleaner.TidyKeepsWords` | frontend/src/components/MessageBubble.tsx:45-47 | The whitespace stage keeps every word character, in order |
| `Cleaner.CleanContent` | frontend/src/components/MessageBubble.tsx:15-48 | The cleaned text is single-spaced and trimmed, and holds none of the zero-width, `'`, dash, ellipsis or table characters. Its word characters (everything but markers, digits, full stops and whitespace) are exactly the input's, in order, after the replacements of lines 27-42 |
| `CleanerFacts.PairedStepFixed` | frontend/src/components/MessageBubble.tsx:18-21 | Without its opening marker, the bold, italic, inline-code or fence step changes nothing |
| `CleanerFacts.HeaderStepFixed` | frontend/src/components/MessageBubble.tsx:22 | Without `#`, the header step changes nothing |
| `CleanerFacts.ItemStepsFixed` | frontend/src/components/MessageBubble.tsx:23-24 | A single line that opens with neither whitespace nor an item marker passes both list steps unchanged |
| `CleanerFacts.MarkdownFixed` | frontend/src/components/MessageBubble.tsx:18-24 | One line with no markers and no item opening passes the markdown stage unchanged |
| `CleanerFacts.SymbolsFixed` | frontend/src/components/MessageBubble.tsx:27-42 | Text with none of the special characters passes the symbol stage unchanged |
| `CleanerFacts.TidyFixed` | frontend/src/components/MessageBubble.tsx:45-47 | Single-spaced trimmed text passes the whitespace stage unchanged |
| `CleanerFacts.CleanTextIsFixed` | frontend/src/components/MessageBubble.tsx:15-48 | Text that already has the output's shape and no markdown marker is returned unchanged |
| `CleanerFacts.BoldAndItalicExample` | frontend/src/components/MessageBubble.tsx:18-19 | `"**bold** and *italic*"` cleans to `"bold and italic"` |
| `CleanerFacts.AccentsExample` | frontend/src/components/MessageBubble.tsx:29-41 | `"café – naïve…"` cleans to `"cafe - naive..."` |
| `CleanerFacts.BulletListExample` | frontend/src/components/MessageBubble.tsx:23 | `"- apples\n- pears"` cleans to `"apples pears"`: each line loses its bullet and the break folds into a space |
| `CleanerFacts.NestedBulletExample` | frontend/src/components/MessageBubble.tsx:23 | `"- - x"` cleans to `"- x"`: one list marker per line per pass |
| `CleanerFacts.MidLineHeaderExample` | frontend/src/components/MessageBubble.tsx:22 | `"C# is"` cleans to `"Cis"`: the header pattern is not anchored |
| `CleanerFacts.FencedBlockExample` | frontend/src/components/MessageBubble.tsx:20-21 | `` "```x```" `` cleans to `"x"`: the block's content is kept |
| `CleanerFacts.HiddenHeaderExample` | frontend/src/components/MessageBubble.tsx:22-27 | `"#\u200B x"` cleans to `"# x"`, because the zero-width space hides the header from line 22 and line 27 deletes it afterwards |
| `CleanerFacts.NotIdempotent` | frontend/src/components/MessageBubble.tsx:15-48 | Cleaning twice can differ from cleaning once |
| `Bubble.DisplayText` | frontend/src/components/MessageBubble.tsx:62 | User text is shown verbatim; bot text is shown cleaned, and is therefore single-spaced, trimmed and free of special characters |
| `Bubble.CopyText` | frontend/src/components/MessageBubble.tsx:52 | The copied text is the displayed text, for every message |
| `Chat.Initial` | frontend/src/App.tsx:9-11 | The application starts with no messages and not loading |
| `Chat.Append` | frontend/src/App.tsx:22 | Appending keeps every earlier message in place, adds exactly one message with the given sender and text, and gives it an id no earlier message has |
| `Chat.BeginSend` | frontend/src/App.tsx:14-26 | The user message, with the argument's exact text, is appended before loading turns on |
| `Chat.FinishSend` | frontend/src/App.tsx:29-55 | One bot message is appended: the answer on success, the fixed error text on failure. Loading then ends on either path |
| `Chat.HandleSend` | frontend/src/App.tsx:13-56 | Over the whole call, the list becomes the old list plus the user message plus the bot message, and no earlier message changes. Loading is on while the call is pending and off at the end, on either path, and every id is fresh |
| `Chat.CropRotationScenario` | frontend/src/App.tsx:13-56 | One question and answer from the initial state leaves exactly those two messages, with loading off |
| `InputBox.HandleSubmit` | frontend/src/components/InputBox.tsx:14-19 | The box sends exactly when the trimmed text is non-empty and nothing is pending. It then sends the trimmed text, which is non-empty and trims to itself, and clears the box; otherwise the box is untouched |
| `InputBox.HandleKeyDown` | frontend/src/components/InputBox.tsx:21-26 | Enter without Shift suppresses the newline and submits; every other key leaves the box alone and sends nothing |
| `InputBox.Click` | frontend/src/components/InputBox.tsx:69-70 | A click acts as a submit. While loading the button is enabled, but the click sends nothing |
| `InputBox.TypeText` | frontend/src/components/InputBox.tsx:53-56 | Typing replaces the text, except while loading, when the disabled textarea keeps it |
| `InputBox.EnterMatchesClick` | frontend/src/components/InputBox.tsx:21-26 | Enter and the send button always have the same effect |
| `InputBox.BlankIsNeverSent` | frontend/src/components/InputBox.tsx:15 | Whitespace-only text is never sent, and it stays in the box |
| `Session.Handled` | frontend/src/components/InputBox.tsx:14-26 | Whatever the event, nothing is sent while a reply is pending. Anything sent is the trimmed, non-empty text of the box, and the box is cleared. With no reply pending, Enter without Shift and a click both do exactly what `handleSubmit` does, so non-blank text is sent. Any other key changes nothing, and typing goes through `onChange` |
| `Session.Step` | frontend/src/App.tsx:13-56 | One event adds at most one message and never changes an earlier one. A send appends the user's message with the sent text, turns loading on and clears the box. A settlement while loading appends the bot's message with the answer or the error text and turns loading off. Any other event leaves the conversation as it was |
| `Session.StartInv` | frontend/src/App.tsx:9-11 | The starting screen satisfies the session invariant |
| `Session.StepInv` | frontend/src/App.tsx:13-56 | Every event preserves the invariant: loading is on exactly when the last message is the user's; messages alternate user and bot; user texts are non-empty and trimmed; ids are fresh |
| `Session.Run` | frontend/src/App.tsx:22-50 | Any sequence of events keeps the invariant, and the message list only grows by appending |
| `Session.NoSendWhilePending` | frontend/src/components/InputBox.tsx:15 | On every reachable screen, a send happens only when no reply is pending |
| `Session.IdleMeansAnswered` | frontend/src/App.tsx:51-55 | On every reachable screen with no reply pending, every user message is followed by the bot's reply |

## Left out

- `backend/app/*`: the retrieval pipeline, the vector store and the HTTP server. Every decision there
  depends on language-model or database calls that are not visible here.
- `frontend/src/api.ts`: the request to the backend. Its outcome is the parameter `Chat.GatewayResult`:
  `Success(answer)` for a response, `Failure` for any thrown error.
- Layout components (`ChatBox.tsx`, `ChatHeader.tsx`), styling, icons and scrolling.
- The clipboard write and the two-second "copied" indicator (`MessageBubble.tsx:53-55`). These are
  browser effects; only the copied text is modelled.
- Textarea auto-resize and focus (`InputBox.tsx:29-41`). These are DOM effects.
- `Date.now()` and `uuidv4()`:
  - timestamps are opaque integer parameters;
  - ids come from a counter. Fresh ids are assumed rather than drawn at random, so the astronomically
    unlikely uuid collision is not modelled.
- React's batching of state updates and the interleaving of two calls to `handleSend` in flight at
  once. A call is modelled as a sequence of transitions. The session model admits one pending call,
  which is all the input box allows.
- Characters are Unicode scalar values, while JavaScript strings are UTF-16 code units. None of the
  patterns names a surrogate, so characters outside the Basic Multilingual Plane pass through the same
  way in both.
- `Cleaner.StripMarkdown`: the contract states what the markdown stage keeps (every plain character, in
  order), not exactly what each step removes. Each step's removals are pinned down by `Regex.MatchAt`
  and `Regex.MatchAtComplete`, and by the worked examples.
- `Cleaner.NormalizeSymbols`: the contract speaks about which characters occur, not their positions.
  The position-by-position statements live on `Cleaner.StraightenQuotes`, `Cleaner.PlainDashes` and
  `Cleaner.Transliterate`, and the counts on `Cleaner.StripZeroWidthCounts` and
  `Cleaner.ExpandEllipsisCounts`.
- `Regex.ReplaceFrom`: its own contract gives only the length bound. What a replace keeps is stated in
  `RegexFacts.ReplaceKeepsProse` and `RegexFacts.ReplaceFromVerbatim`.
- `RegexFacts.ReplaceKeepsProse`: fenced blocks delete their content, so for the fence pattern the
  lemma says nothing. That step is shown to be dead instead (`Cleaner.FencedStepIsDead`).
- `Session.Handled`: key presses are ignored while loading. The textarea is disabled then (line 56), so
  they never reach `handleKeyDown`.

=== FILE: bubble.dfy ===
/** What a message bubble shows and copies (MessageBubble.tsx:52, 62). */
module Bubble {
  import opened JsText
  import opened Messages
  import opened Cleaner

  /** Line 62: user text is shown verbatim; bot text only after `cleanContent`. */
  function DisplayText(m: Message): (r: seq<char>)
    ensures m.sender == User ==> r == m.text
    ensures m.sender == Bot ==> r == CleanContent(m.text)
    ensures m.sender == Bot ==> SingleSpaced(r) && Trimmed(r) && NoSpecials(r)
  {
    if m.sender == User then m.text else CleanContent(m.text)
  }

  /** Line 52: the copy button writes the very text the bubble shows. */
  function CopyText(m: Message): (r: seq<char>)
    ensures r == DisplayText(m)
  {
    if m.sender == User then m.text else CleanContent(m.text)
  }
}

=== FILE: chat.dfy ===
/**
  The conversation state of App.tsx and its `handleSend` lifecycle
  (App.tsx:9-11, 13-56), as pure transitions. The backend call is not made
  here: its outcome is a parameter, `Success(answer)` or `Failure`.
 */
module Chat {
  import opened Messages

  /** What `fetchBotResponse` settles to: an answer, or any error at all. */
  datatype GatewayResult = Success(answer: seq<char>) | Failure

  /** The two pieces of React state, plus the supply `uuidv4()` draws fresh ids from. */
  datatype State = State(messages: seq<Message>, isLoading: bool, nextId: nat)

  /** The bot message shown when the backend call fails (App.tsx:47). */
  const ErrorText: seq<char> := "\U{26A0}\U{FE0F} Failed to connect to the backend. Please try again."

  /** Every id handed out is below the supply's next id, and no two messages share one. */
  ghost predicate Valid(st: State) {
    && (forall i :: 0 <= i < |st.messages| ==> st.messages[i].id < st.nextId)
    && (forall i, j :: 0 <= i < j < |st.messages| ==> st.messages[i].id != st.messages[j].id)
  }

  /** Lines 9 and 11: no messages, not loading. */
  function Initial(): (st: State)
    ensures st.messages == [] && !st.isLoading
    ensures Valid(st)
  {
    State([], false, 0)
  }

  /** `setMessages((prev) => [...prev, message])` for a new message with a fresh id. */
  function Append(st: State, sender: Sender, text: seq<char>, now: int): (st': State)
    requires Valid(st)
    ensures Valid(st')
    ensures |st'.messages| == |st.messages| + 1 && st'.messages[..|st.messages|] == st.messages
    ensures st'.messages[|st.messages|].sender == sender && st'.messages[|st.messages|].text == text
    ensures forall i :: 0 <= i < |st.messages| ==> st.messages[i].id != st'.messages[|st.messages|].id
    ensures st'.isLoading == st.isLoading
  {
    var m := Message(st.nextId, sender, text, now);
    var st' := State(st.messages + [m], st.isLoading, st.nextId + 1);
    assert st'.messages[..|st.messages|] == st.messages;
    st'
  }

  /**
    Lines 14-26: the user message is appended first, then `isLoading` turns
    on. Both intermediate states are returned so that their order shows.
   */
  function BeginSend(st: State, text: seq<char>, now: int): (r: (State, State))
    requires Valid(st)
    ensures Valid(r.0) && Valid(r.1)
    ensures r.0.isLoading == st.isLoading && r.1.isLoading
    ensures r.0.messages == r.1.messages
    ensures |r.1.messages| == |st.messages| + 1 && r.1.messages[..|st.messages|] == st.messages
    ensures r.1.messages[|st.messages|].sender == User && r.1.messages[|st.messages|].text == text
  {
    var appended := Append(st, User, text, now);
    (appended, appended.(isLoading := true))
  }

  /** The text of the bot message for a settled call: the answer, or the fixed error text (lines 32-50). */
  function ReplyText(result: GatewayResult): (t: seq<char>)
    ensures result.Success? ==> t == result.answer
    ensures result.Failure? ==> t == ErrorText
  {
    match result
    case Success(answer) => answer
    case Failure => ErrorText
  }

  /**
    Lines 29-55: once the call settles, one bot message is appended (the
    answer, or the error text: no error escapes), then the `finally` block
    turns `isLoading` off on either path.
   */
  function FinishSend(st: State, result: GatewayResult, now: int): (r: (State, State))
    requires Valid(st)
    ensures Valid(r.0) && Valid(r.1)
    ensures r.0.isLoading == st.isLoading && !r.1.isLoading
    ensures r.0.messages == r.1.messages
    ensures |r.1.messages| == |st.messages| + 1 && r.1.messages[..|st.messages|] == st.messages
    ensures r.1.messages[|st.messages|].sender == Bot
    ensures result.Success? ==> r.1.messages[|st.messages|].text == result.answer
    ensures result.Failure? ==> r.1.messages[|st.messages|].text == ErrorText
  {
    var appended := Append(st, Bot, ReplyText(result), now);
    (appended, appended.(isLoading := false))
  }

  /**
    `handleSend(text)` run to completion, as the four states it passes
    through: user message appended, loading, reply appended, loading off.
    Nothing guards against a call while loading: that check lives in the
    input box.
   */
  function HandleSend(st: State, text: seq<char>, result: GatewayResult, sentAt: int, repliedAt: int): (trace: seq<State>)
    requires Valid(st)
    ensures |trace| == 4
    ensures forall k :: 0 <= k < 4 ==> Valid(trace[k])
    ensures |trace[0].messages| == |st.messages| + 1
    ensures trace[0].messages == st.messages + [trace[0].messages[|st.messages|]] && trace[0].isLoading == st.isLoading
    ensures trace[0].messages[|st.messages|].sender == User && trace[0].messages[|st.messages|].text == text
    ensures trace[1].messages == trace[0].messages && trace[1].isLoading
    ensures |trace[2].messages| == |st.messages| + 2
    ensures trace[2].messages == trace[1].messages + [trace[2].messages[|st.messages| + 1]] && trace[2].isLoading
    ensures trace[2].messages[|st.messages| + 1].sender == Bot
    ensures trace[2].messages[|st.messages| + 1].text == if result.Success? then result.answer else ErrorText
    ensures trace[3].messages == trace[2].messages && !trace[3].isLoading
    ensures forall k :: 0 <= k < 4 ==> trace[k].messages[..|st.messages|] == st.messages
  {
    var (a, b) := BeginSend(st, text, sentAt);
    var (c, d) := FinishSend(b, result, repliedAt);
    assert a.messages == st.messages + [a.messages[|st.messages|]];
    assert c.messages == b.messages + [c.messages[|b.messages|]];
    assert c.messages[..|st.messages|] == b.messages[..|st.messages|];
    [a, b, c, d]
  }

  /** One question, one answer, loading off at the end. */
  lemma CropRotationScenario()
    ensures var trace := HandleSend(Initial(), "What is crop rotation?", Success("Crop rotation improves soil health."), 1, 2);
      && |trace[3].messages| == 2
      && trace[3].messages[0].sender == User && trace[3].messages[0].text == "What is crop rotation?"
      && trace[3].messages[1].sender == Bot && trace[3].messages[1].text == "Crop rotation improves soil health."
      && !trace[3].isLoading
  {
  }
}

=== FILE: cleaner.dfy ===
/**
  `cleanContent` (MessageBubble.tsx:15-48): the bot-text cleaner, as the
  ordered chain of global replacements it is, in three stages: markdown
  markers, special characters, whitespace.
 */
module Cleaner {
  import opened JsText
  import opened Regex
  import opened RegexFacts

  // ---------------------------------------------------------------------------
  // Character classes of lines 27-42
  // ---------------------------------------------------------------------------

  /** `[\u200B-\u200D\uFEFF]`. */
  predicate IsZeroWidth(c: char) {
    c == '\U{200B}' || c == '\U{200C}' || c == '\U{200D}' || c == '\U{FEFF}'
  }

  /** The class `[""'']` exactly as it is written: a plain double and a plain single quote. */
  predicate IsQuote(c: char) {
    c == '"' || c == '\''
  }

  /** `[–—]`: EN DASH and EM DASH. */
  predicate IsDash(c: char) {
    c == '\U{2013}' || c == '\U{2014}'
  }

  /** HORIZONTAL ELLIPSIS. */
  const Ellipsis: char := '\U{2026}'

  /** The replacement table for non-ASCII characters (lines 33-40): accented vowels, ñ and ç. */
  const Transliteration: map<char, char> := map[
    '\U{00E1}' := 'a', '\U{00E0}' := 'a', '\U{00E4}' := 'a', '\U{00E2}' := 'a', '\U{0101}' := 'a', '\U{00E3}' := 'a',
    '\U{00E9}' := 'e', '\U{00E8}' := 'e', '\U{00EB}' := 'e', '\U{00EA}' := 'e', '\U{0113}' := 'e',
    '\U{00ED}' := 'i', '\U{00EC}' := 'i', '\U{00EF}' := 'i', '\U{00EE}' := 'i', '\U{012B}' := 'i',
    '\U{00F3}' := 'o', '\U{00F2}' := 'o', '\U{00F6}' := 'o', '\U{00F4}' := 'o', '\U{014D}' := 'o', '\U{00F5}' := 'o',
    '\U{00FA}' := 'u', '\U{00F9}' := 'u', '\U{00FC}' := 'u', '\U{00FB}' := 'u', '\U{016B}' := 'u',
    '\U{00F1}' := 'n', '\U{00E7}' := 'c'
  ]

  /** Every key of the table is outside ASCII and every value is a lower-case ASCII letter. */
  lemma TransliterationShape()
    ensures forall c :: c in Transliteration ==> '\U{0080}' <= c
    ensures forall c :: c in Transliteration ==> 'a' <= Transliteration[c] <= 'z'
    ensures forall c :: c in Transliteration ==> Transliteration[c] !in Transliteration
  {
  }

  // ---------------------------------------------------------------------------
  // Single-character replacements (lines 27-42)
  // ---------------------------------------------------------------------------

  /** Line 27: zero-width characters are deleted, every other character is kept. */
  function StripZeroWidth(s: seq<char>): (r: seq<char>)
    ensures forall c :: c in r <==> c in s && !IsZeroWidth(c)
  {
    if s == [] then [] else (if IsZeroWidth(s[0]) then [] else [s[0]]) + StripZeroWidth(s[1..])
  }

  /** Each zero-width character is deleted and every other one is kept as often as it occurs. */
  lemma {:induction false} StripZeroWidthCounts(s: seq<char>)
    ensures forall c :: multiset(StripZeroWidth(s))[c] == if IsZeroWidth(c) then 0 else multiset(s)[c]
  {
    if s != [] {
      StripZeroWidthCounts(s[1..]);
      assert s == [s[0]] + s[1..];
    }
  }

  /** Line 28: each character of the quote class becomes `"`. */
  function StraightenQuotes(s: seq<char>): (r: seq<char>)
    ensures |r| == |s|
    ensures forall k :: 0 <= k < |s| ==> r[k] == if IsQuote(s[k]) then '"' else s[k]
  {
    if s == [] then [] else [if IsQuote(s[0]) then '"' else s[0]] + StraightenQuotes(s[1..])
  }

  /** Line 29: each en or em dash becomes one `-`. */
  function PlainDashes(s: seq<char>): (r: seq<char>)
    ensures |r| == |s|
    ensures forall k :: 0 <= k < |s| ==> r[k] == if IsDash(s[k]) then '-' else s[k]
  {
    if s == [] then [] else [if IsDash(s[0]) then '-' else s[0]] + PlainDashes(s[1..])
  }

  /** Line 30: each ellipsis becomes three full stops. */
  function ExpandEllipsis(s: seq<char>): (r: seq<char>)
    ensures forall c :: c in r <==> (c in s && c != Ellipsis) || (c == '.' && Ellipsis in s)
  {
    if s == [] then [] else (if s[0] == Ellipsis then "..." else [s[0]]) + ExpandEllipsis(s[1..])
  }

  /** Each ellipsis becomes exactly three full stops; every other character keeps its count. */
  lemma {:induction false} ExpandEllipsisCounts(s: seq<char>)
    ensures forall c :: multiset(ExpandEllipsis(s))[c] == (if c == Ellipsis then 0 else if c == '.' then multiset(s)['.'] + 3 * multiset(s)[Ellipsis] else multiset(s)[c])
  {
    if s != [] {
      ExpandEllipsisCounts(s[1..]);
      assert s == [s[0]] + s[1..];
    }
  }

  /** The callback of lines 31-42 for one character matched by `[^\x00-\x7F]`. */
  function AsciiFor(c: char): char {
    if c < '\U{0080}' then c
    else if c in Transliteration then Transliteration[c]
    else c
  }

  /** Lines 31-42: table characters become their ASCII letter, every other character is kept. */
  function Transliterate(s: seq<char>): (r: seq<char>)
    ensures |r| == |s|
    ensures forall k :: 0 <= k < |s| ==> r[k] == if s[k] in Transliteration then Transliteration[s[k]] else s[k]
  {
    TransliterationShape();
    if s == [] then [] else [AsciiFor(s[0])] + Transliterate(s[1..])
  }

  /** Straightening quotes works piece by piece. */
  lemma {:induction false} StraightenQuotesAppend(a: seq<char>, b: seq<char>)
    ensures StraightenQuotes(a + b) == StraightenQuotes(a) + StraightenQuotes(b)
  {
    if a == [] {
      assert a + b == b;
    } else {
      assert (a + b)[1..] == a[1..] + b;
      StraightenQuotesAppend(a[1..], b);
    }
  }

  /** Replacing dashes works piece by piece. */
  lemma {:induction false} PlainDashesAppend(a: seq<char>, b: seq<char>)
    ensures PlainDashes(a + b) == PlainDashes(a) + PlainDashes(b)
  {
    if a == [] {
      assert a + b == b;
    } else {
      assert (a + b)[1..] == a[1..] + b;
      PlainDashesAppend(a[1..], b);
    }
  }

  /** Transliteration works piece by piece. */
  lemma {:induction false} TransliterateAppend(a: seq<char>, b: seq<char>)
    ensures Transliterate(a + b) == Transliterate(a) + Transliterate(b)
  {
    if a == [] {
      assert a + b == b;
    } else {
      assert (a + b)[1..] == a[1..] + b;
      TransliterateAppend(a[1..], b);
    }
  }

  /** Deleting zero-width characters works piece by piece, so it keeps the order of everything else. */
  lemma {:induction false} StripZeroWidthAppend(a: seq<char>, b: seq<char>)
    ensures StripZeroWidth(a + b) == StripZeroWidth(a) + StripZeroWidth(b)
  {
    if a == [] {
      assert a + b == b;
    } else {
      assert (a + b)[1..] == a[1..] + b;
      StripZeroWidthAppend(a[1..], b);
    }
  }

  /** Expanding ellipses works piece by piece, so it keeps the order of everything else. */
  lemma {:induction false} ExpandEllipsisAppend(a: seq<char>, b: seq<char>)
    ensures ExpandEllipsis(a + b) == ExpandEllipsis(a) + ExpandEllipsis(b)
  {
    if a == [] {
      assert a + b == b;
    } else {
      assert (a + b)[1..] == a[1..] + b;
      ExpandEllipsisAppend(a[1..], b);
    }
  }

  // ---------------------------------------------------------------------------
  // The three stages
  // ---------------------------------------------------------------------------

  /** Characters no markdown step can remove: not a marker, digit, full stop or whitespace. */
  predicate IsPlain(c: char) {
    c != '*' && c != '`' && c != '#' && c != '-' && c != '+' && c != '.' && !IsDigit(c) && !IsSpace(c)
  }

  function PlainText(s: seq<char>): seq<char> {
    if s == [] then [] else (if IsPlain(s[0]) then [s[0]] else []) + PlainText(s[1..])
  }

  lemma {:induction false} PlainTextOfProse(p: Pattern, s: seq<char>)
    requires forall c :: IsPlain(c) ==> Keeps(p, c)
    ensures PlainText(Prose(p, s)) == PlainText(s)
  {
    if s != [] {
      PlainTextOfProse(p, s[1..]);
      PlainTextAppend(Kept(p, s[0]), Prose(p, s[1..]));
    }
  }

  lemma {:induction false} PlainTextAppend(a: seq<char>, b: seq<char>)
    ensures PlainText(a + b) == PlainText(a) + PlainText(b)
  {
    if a == [] {
      assert a + b == b;
    } else {
      assert (a + b)[1..] == a[1..] + b;
      PlainTextAppend(a[1..], b);
    }
  }

  /** A markdown step never deletes a plain character, nor reorders them. */
  lemma StepKeepsPlainText(p: Pattern, s: seq<char>)
    requires p != FencedCode && p != SpaceRun && p != BlankLines
    ensures PlainText(Replace(p, s)) == PlainText(s)
  {
    PlainTextOfProse(p, Replace(p, s));
    ReplaceKeepsProse(p, s);
    PlainTextOfProse(p, s);
  }

  /** Line 21 runs after line 20 and so never matches: line 20 leaves no two backticks on one line. */
  lemma FencedStepIsDead(s: seq<char>)
    ensures Replace(FencedCode, Replace(InlineCode, s)) == Replace(InlineCode, s)
  {
    PairedMarkersLeaveOnePerLine(InlineCode, s);
    FencedCodeFindsNothing(Replace(InlineCode, s));
  }

  /** Lines 18-24: markdown markers removed, every plain character kept in order. */
  function StripMarkdown(s: seq<char>): (r: seq<char>)
    ensures |r| <= |s|
    ensures PlainText(r) == PlainText(s)
  {
    var s1 := Replace(Bold, s);
    var s2 := Replace(Italic, s1);
    var s3 := Replace(InlineCode, s2);
    var s4 := Replace(FencedCode, s3);
    var s5 := Replace(Header, s4);
    var s6 := Replace(ListItem, s5);
    var s7 := Replace(NumberedItem, s6);
    StepKeepsPlainText(Bold, s);
    StepKeepsPlainText(Italic, s1);
    StepKeepsPlainText(InlineCode, s2);
    FencedStepIsDead(s2);
    StepKeepsPlainText(Header, s4);
    StepKeepsPlainText(ListItem, s5);
    StepKeepsPlainText(NumberedItem, s6);
    s7
  }

  /** None of the characters lines 27-42 exist to remove. */
  predicate NoSpecials(r: seq<char>) {
    forall c :: c in r ==> NotSpecial(c)
  }

  predicate NotSpecial(c: char) {
    !IsZeroWidth(c) && c != '\'' && !IsDash(c) && c != Ellipsis && c !in Transliteration
  }

  /** Lines 27-42: special characters removed or replaced. */
  function NormalizeSymbols(s: seq<char>): (r: seq<char>)
    ensures NoSpecials(r)
    ensures forall c :: c in r ==> c in s || c == '"' || c == '-' || c == '.' || 'a' <= c <= 'z'
  {
    var s1 := StripZeroWidth(s);
    var s2 := StraightenQuotes(s1);
    var s3 := PlainDashes(s2);
    var s4 := ExpandEllipsis(s3);
    var s5 := Transliterate(s4);
    QuotesGone(s1);
    DashesGone(s2);
    TableGone(s4);
    forall c | c in s5
      ensures NotSpecial(c) && (c in s || c == '"' || c == '-' || c == '.' || 'a' <= c <= 'z')
    {
      if c in s4 {
        if c in s3 {
          if c in s2 && c != '"' {
            assert c in s1;
          }
        }
      }
    }
    s5
  }

  /** The symbol stage works piece by piece: each character is replaced on its own. */
  lemma NormalizeSymbolsAppend(a: seq<char>, b: seq<char>)
    ensures NormalizeSymbols(a + b) == NormalizeSymbols(a) + NormalizeSymbols(b)
  {
    StripZeroWidthAppend(a, b);
    var a1, b1 := StripZeroWidth(a), StripZeroWidth(b);
    StraightenQuotesAppend(a1, b1);
    var a2, b2 := StraightenQuotes(a1), StraightenQuotes(b1);
    PlainDashesAppend(a2, b2);
    var a3, b3 := PlainDashes(a2), PlainDashes(b2);
    ExpandEllipsisAppend(a3, b3);
    var a4, b4 := ExpandEllipsis(a3), ExpandEllipsis(b3);
    TransliterateAppend(a4, b4);
  }

  /** A marker, digit, full stop or whitespace character comes out of the symbol stage as itself or not at all. */
  lemma SymbolsOfNonPlain(c: char)
    requires !IsPlain(c)
    ensures NormalizeSymbols([c]) == [] || NormalizeSymbols([c]) == [c]
  {
    assert [c][1..] == [];
    if !IsZeroWidth(c) {
      assert StripZeroWidth([c]) == [c];
      assert StraightenQuotes([c]) == [c];
      assert PlainDashes([c]) == [c];
      assert ExpandEllipsis([c]) == [c];
      assert c !in Transliteration;
      assert Transliterate([c]) == [c];
    }
  }

  /**
    The symbol stage turns the words of a text into the same characters
    whatever markers, digits and whitespace stand between them.
   */
  lemma {:induction false} SymbolsKeepWords(x: seq<char>)
    ensures PlainText(NormalizeSymbols(x)) == PlainText(NormalizeSymbols(PlainText(x)))
  {
    if x != [] {
      var c, rest := x[0], x[1..];
      assert x == [c] + rest;
      SymbolsKeepWords(rest);
      NormalizeSymbolsAppend([c], rest);
      PlainTextAppend(NormalizeSymbols([c]), NormalizeSymbols(rest));
      if IsPlain(c) {
        NormalizeSymbolsAppend([c], PlainText(rest));
        PlainTextAppend(NormalizeSymbols([c]), NormalizeSymbols(PlainText(rest)));
      } else {
        SymbolsOfNonPlain(c);
        assert [c][1..] == [];
        assert PlainText(NormalizeSymbols([c])) == [];
        assert PlainText(x) == PlainText(rest);
      }
    }
  }

  lemma QuotesGone(s: seq<char>)
    ensures forall c :: c in StraightenQuotes(s) ==> (c in s || c == '"') && c != '\''
  {
    var r := StraightenQuotes(s);
    forall c | c in r ensures (c in s || c == '"') && c != '\'' {
      var k :| 0 <= k < |r| && r[k] == c;
    }
  }

  lemma DashesGone(s: seq<char>)
    ensures forall c :: c in PlainDashes(s) ==> (c in s || c == '-') && !IsDash(c)
  {
    var r := PlainDashes(s);
    forall c | c in r ensures (c in s || c == '-') && !IsDash(c) {
      var k :| 0 <= k < |r| && r[k] == c;
    }
  }

  lemma TableGone(s: seq<char>)
    ensures forall c :: c in Transliterate(s) ==> (c in s || 'a' <= c <= 'z') && c !in Transliteration
  {
    var r := Transliterate(s);
    TransliterationShape();
    forall c | c in r ensures (c in s || 'a' <= c <= 'z') && c !in Transliteration {
      var k :| 0 <= k < |r| && r[k] == c;
    }
  }

  /** Lines 45-47: whitespace folded to single spaces and trimmed. */
  function TidyWhitespace(s: seq<char>): (r: seq<char>)
    ensures SingleSpaced(r) && Trimmed(r)
    ensures forall c :: c in r ==> c in s || c == ' '
    ensures Prose(SpaceRun, r) == Prose(SpaceRun, s)
    ensures r == Trim(Squeeze(s))
  {
    var s1 := Replace(SpaceRun, s);
    var s2 := Replace(BlankLines, s1);
    var s3 := Trim(s2);
    SpaceRunIsSqueeze(s);
    SpaceRunLeavesSingleSpaces(s);
    SpaceRunFacts(s);
    BlankLinesFindNothing(s1);
    TrimFacts(s2);
    s3
  }

  /** The whitespace stage keeps every word character, in order. */
  lemma TidyKeepsWords(s: seq<char>)
    ensures PlainText(TidyWhitespace(s)) == PlainText(s)
  {
    PlainTextOfProse(SpaceRun, TidyWhitespace(s));
    PlainTextOfProse(SpaceRun, s);
  }

  lemma SpaceRunFacts(s: seq<char>)
    ensures '\n' !in Replace(SpaceRun, s)
    ensures forall c :: c in Replace(SpaceRun, s) ==> c in s || c == ' '
    ensures Prose(SpaceRun, Replace(SpaceRun, s)) == Prose(SpaceRun, s)
  {
    var r := Replace(SpaceRun, s);
    SpaceRunLeavesSingleSpaces(s);
    ReplaceKeepsProse(SpaceRun, s);
    forall c | c in r ensures c in s || c == ' ' {
      var k :| 0 <= k < |r| && r[k] == c;
      if !IsSpace(c) {
        ProseKeepsChar(SpaceRun, r, k);
        ProseHasOnlyInput(SpaceRun, s, c);
      }
    }
  }

  /** A kept character of `s` shows up in `Prose(p, s)`. */
  lemma {:induction false} ProseKeepsChar(p: Pattern, s: seq<char>, k: nat)
    requires k < |s| && Keeps(p, s[k])
    ensures s[k] in Prose(p, s)
  {
    if k > 0 {
      ProseKeepsChar(p, s[1..], k - 1);
    }
  }

  /** `Prose(p, s)` holds nothing that is not in `s`. */
  lemma {:induction false} ProseHasOnlyInput(p: Pattern, s: seq<char>, c: char)
    requires c in Prose(p, s)
    ensures c in s
  {
    if s != [] && c != s[0] {
      ProseHasOnlyInput(p, s[1..], c);
    }
  }

  /** Trimming keeps single spacing, adds no character and deletes only whitespace. */
  lemma TrimFacts(s: seq<char>)
    ensures SingleSpaced(s) ==> SingleSpaced(Trim(s))
    ensures forall c :: c in Trim(s) ==> c in s
    ensures Prose(SpaceRun, Trim(s)) == Prose(SpaceRun, s)
  {
    var r := Trim(s);
    var a :| TrimmedAt(r, s, a);
    TrimSlice(s, r, a);
    TrimKeepsProse(s, r, a);
  }

  lemma TrimSlice(s: seq<char>, r: seq<char>, a: nat)
    requires TrimmedAt(r, s, a)
    ensures SingleSpaced(s) ==> SingleSpaced(r)
    ensures forall c :: c in r ==> c in s
  {
    assert forall k :: 0 <= k < |r| ==> r[k] == s[a + k];
  }

  lemma TrimKeepsProse(s: seq<char>, r: seq<char>, a: nat)
    requires TrimmedAt(r, s, a)
    ensures Prose(SpaceRun, r) == Prose(SpaceRun, s)
  {
    var pre, post := s[..a], s[a + |r|..];
    assert s == pre + r + post;
    ProseNone(SpaceRun, pre);
    ProseNone(SpaceRun, post);
    ProseAppend(SpaceRun, pre + r, post);
    ProseAppend(SpaceRun, pre, r);
  }

  lemma SpacesAreNotSpecial(s: seq<char>, r: seq<char>)
    requires NoSpecials(s)
    requires forall c :: c in r ==> c in s || c == ' '
    ensures NoSpecials(r)
  {
  }

  /**
    `cleanContent`: the whole chain of lines 17-47. Whatever the backend sent,
    the result is single-spaced, trimmed, and free of the characters lines
    27-42 replace; and its word characters are exactly those of the input,
    in order, after the replacements of lines 27-42.
   */
  function CleanContent(text: seq<char>): (r: seq<char>)
    ensures SingleSpaced(r) && Trimmed(r)
    ensures NoSpecials(r)
    ensures PlainText(r) == PlainText(NormalizeSymbols(PlainText(text)))
  {
    var m := StripMarkdown(text);
    var s := NormalizeSymbols(m);
    var r := TidyWhitespace(s);
    SpacesAreNotSpecial(s, r);
    TidyKeepsWords(s);
    SymbolsKeepWords(m);
    r
  }
}

=== FILE: cleaner_facts.dfy ===
/**
  What `cleanContent` leaves alone, and worked examples of what it changes.
  Already-clean text is a fixed point, but the cleaner is not idempotent:
  a character deleted late in the chain can expose a marker an earlier
  step has already passed over.
 */
module CleanerFacts {
  import opened Wrappers
  import opened JsText
  import opened Regex
  import opened RegexFacts
  import opened Cleaner

  // ---------------------------------------------------------------------------
  // Text each stage leaves as it is
  // ---------------------------------------------------------------------------

  /** The character every match of a lazy pattern opens with. */
  function OpeningMarker(p: Pattern): char
    requires Lazy(p)
  {
    if p.Bold? || p.Italic? then '*' else '`'
  }

  /** Without its opening marker, the bold, italic, inline-code or fence pattern finds nothing. */
  lemma PairedStepFixed(p: Pattern, s: seq<char>)
    requires Lazy(p) && OpeningMarker(p) !in s
    ensures Replace(p, s) == s
  {
    PairedStepFixedFrom(p, s, 0);
  }

  lemma {:induction false} PairedStepFixedFrom(p: Pattern, s: seq<char>, i: nat)
    requires Lazy(p) && i <= |s| && forall k :: i <= k < |s| ==> s[k] != OpeningMarker(p)
    ensures ReplaceFrom(p, s, i) == s[i..]
    decreases |s| - i
  {
    if i < |s| {
      NoPairAt(p, s, i);
      PairedStepFixedFrom(p, s, i + 1);
      assert s[i..] == [s[i]] + s[i + 1..];
    }
  }

  lemma NoPairAt(p: Pattern, s: seq<char>, k: nat)
    requires Lazy(p) && k < |s| && s[k] != OpeningMarker(p)
    ensures MatchAt(p, s, k).None?
  {
    if k + 2 <= |s| { assert s[k..k + 2][0] == s[k]; }
    if k + 3 <= |s| { assert s[k..k + 3][0] == s[k]; }
  }

  /** Without `#`, the header pattern finds nothing. */
  lemma HeaderStepFixed(s: seq<char>)
    requires '#' !in s
    ensures Replace(Header, s) == s
  {
    forall k | 0 <= k < |s|
      ensures MatchAt(Header, s, k).None?
    {
      assert !IsHash(s[k]);
    }
    NoMatchIdentity(Header, s);
  }

  /** The text opens with a bullet (`-`, `*` or `+`) or a number and a full stop, then whitespace. */
  ghost predicate OpensWithItem(s: seq<char>) {
    || (2 <= |s| && IsListMarker(s[0]) && IsSpace(s[1]))
    || (exists d :: NumberOpening(s, d))
  }

  /** `s` opens with the digits `s[..d]`, a full stop and whitespace. */
  predicate NumberOpening(s: seq<char>, d: int) {
    0 < d && d + 1 < |s| && (forall t :: 0 <= t < d ==> IsDigit(s[t])) && s[d] == '.' && IsSpace(s[d + 1])
  }

  predicate OneLine(s: seq<char>) {
    forall k :: 0 <= k < |s| ==> !IsLineTerminator(s[k])
  }

  /** One line that does not open with whitespace or an item marker has no list item to strip. */
  lemma ItemStepsFixed(s: seq<char>)
    requires OneLine(s) && (s == [] || !IsSpace(s[0]))
    requires !OpensWithItem(s)
    ensures Replace(ListItem, s) == s && Replace(NumberedItem, s) == s
  {
    forall k | 0 <= k < |s|
      ensures MatchAt(ListItem, s, k).None? && MatchAt(NumberedItem, s, k).None?
    {
      if k > 0 {
        assert !IsLineTerminator(s[k - 1]);
      } else {
        assert RunEnd(s, 0, IsSpace) == 0;
        var d := RunEnd(s, 0, IsDigit);
        assert !NumberOpening(s, d);
      }
    }
    NoMatchIdentity(ListItem, s);
    NoMatchIdentity(NumberedItem, s);
  }

  /** One line free of markdown markers, not opening with whitespace or an item marker, passes the markdown stage unchanged. */
  lemma MarkdownFixed(s: seq<char>)
    requires '*' !in s && '`' !in s && '#' !in s
    requires OneLine(s) && (s == [] || !IsSpace(s[0]))
    requires !OpensWithItem(s)
    ensures StripMarkdown(s) == s
  {
    PairedStepFixed(Bold, s);
    PairedStepFixed(Italic, s);
    PairedStepFixed(InlineCode, s);
    PairedStepFixed(FencedCode, s);
    HeaderStepFixed(s);
    ItemStepsFixed(s);
  }

  lemma {:induction false} StripZeroWidthFixed(s: seq<char>)
    requires forall k :: 0 <= k < |s| ==> !IsZeroWidth(s[k])
    ensures StripZeroWidth(s) == s
  {
    if s != [] {
      StripZeroWidthFixed(s[1..]);
      assert s == [s[0]] + s[1..];
    }
  }

  lemma {:induction false} ExpandEllipsisFixed(s: seq<char>)
    requires forall k :: 0 <= k < |s| ==> s[k] != Ellipsis
    ensures ExpandEllipsis(s) == s
  {
    if s != [] {
      ExpandEllipsisFixed(s[1..]);
      assert s == [s[0]] + s[1..];
    }
  }

  /** Text with none of the special characters passes the symbol stage unchanged. */
  lemma SymbolsFixed(s: seq<char>)
    requires NoSpecials(s)
    ensures NormalizeSymbols(s) == s
  {
    assert forall k :: 0 <= k < |s| ==> NotSpecial(s[k]);
    StripZeroWidthFixed(s);
    assert StraightenQuotes(s) == s;
    assert PlainDashes(s) == s;
    ExpandEllipsisFixed(s);
    assert Transliterate(s) == s;
  }

  /** A trimmed string trims to itself. */
  lemma TrimFixed(s: seq<char>)
    requires Trimmed(s)
    ensures Trim(s) == s
  {
    assert s[..0] == [] && s[0 + |s|..] == [];
    assert TrimmedAt(s, s, 0);
    TrimUnique(s, s);
  }

  /** Single-spaced trimmed text passes the whitespace stage unchanged. */
  lemma TidyFixed(s: seq<char>)
    requires SingleSpaced(s) && Trimmed(s)
    ensures TidyWhitespace(s) == s
  {
    SingleSpacedFixed(s, 0);
    assert s[0..] == s;
    assert '\n' !in s by {
      forall k | 0 <= k < |s| ensures s[k] != '\n' {
        if s[k] == '\n' { assert IsSpace(s[k]); }
      }
    }
    BlankLinesFindNothing(s);
    TrimFixed(s);
  }

  /** Single-spaced text has no line terminators: its only whitespace is the ASCII space. */
  lemma SingleSpacedIsOneLine(s: seq<char>)
    requires SingleSpaced(s)
    ensures OneLine(s)
  {
    forall k | 0 <= k < |s| ensures !IsLineTerminator(s[k]) {
      if IsLineTerminator(s[k]) { assert IsSpace(s[k]); }
    }
  }

  /**
    Text that already looks like `cleanContent`'s output, and has no
    markdown marker left for it to strip, is returned unchanged.
   */
  lemma CleanTextIsFixed(s: seq<char>)
    requires SingleSpaced(s) && Trimmed(s) && NoSpecials(s)
    requires '*' !in s && '`' !in s && '#' !in s
    requires !OpensWithItem(s)
    ensures CleanContent(s) == s
  {
    SingleSpacedIsOneLine(s);
    MarkdownFixed(s);
    SymbolsFixed(s);
    TidyFixed(s);
  }

  // ---------------------------------------------------------------------------
  // Worked examples
  // ---------------------------------------------------------------------------

  /** A word cannot occur where its first character does not. */
  lemma NotOccursAt(s: seq<char>, k: nat, w: seq<char>)
    requires k < |s| && |w| > 0 && s[k] != w[0]
    ensures !OccursAt(s, k, w)
  {
    if k + |w| <= |s| { assert s[k..k + |w|][0] == s[k]; }
  }

  lemma OccursTwo(s: seq<char>, k: nat, a: char, b: char)
    requires k + 2 <= |s| && s[k] == a && s[k + 1] == b
    ensures OccursAt(s, k, [a, b])
  {
    assert s[k..k + 2] == [a, b];
  }

  /** The lazy search for a closing marker moves past a character that neither closes nor ends the line. */
  lemma FindCloseStep(s: seq<char>, j: nat, close: seq<char>)
    requires j < |s| && |close| > 0
    requires s[j] != close[0] && !IsLineTerminator(s[j])
    ensures FindClose(s, j, close, false) == FindClose(s, j + 1, close, false)
  {
    NotOccursAt(s, j, close);
  }

  /** Line 18 on the first example: one bold span, unwrapped. */
  lemma BoldStepExample(s: seq<char>)
    requires s == "**bold** and *italic*"
    ensures Replace(Bold, s) == "bold and *italic*"
  {
    BoldSpanExample(s);
    BoldTailExample(s);
    MatchStep(Bold, s, 0, Match(8, "bold"));
    ReplaceFromVerbatim(Bold, s, 8, |s|);
    ScanAtEnd(Bold, s);
    BoldRestText(s);
  }

  lemma BoldRestText(s: seq<char>)
    requires s == "**bold** and *italic*"
    ensures "bold" + (s[8..|s|] + []) == "bold and *italic*"
  {
    assert s[8..|s|] == " and *italic*";
  }

  lemma BoldSpanExample(s: seq<char>)
    requires s == "**bold** and *italic*"
    ensures MatchAt(Bold, s, 0) == Some(Match(8, "bold"))
  {
    OccursTwo(s, 0, '*', '*');
    BoldCloseExample(s);
    assert s[2..6] == "bold";
  }

  lemma BoldCloseExample(s: seq<char>)
    requires s == "**bold** and *italic*"
    ensures FindClose(s, 2, "**", false) == Some(6)
  {
    OccursTwo(s, 6, '*', '*');
    assert FindClose(s, 6, "**", false) == Some(6);
    FindCloseStep(s, 5, "**");
    FindCloseStep(s, 4, "**");
    FindCloseStep(s, 3, "**");
    FindCloseStep(s, 2, "**");
  }

  lemma BoldTailExample(s: seq<char>)
    requires s == "**bold** and *italic*"
    ensures forall k :: 8 <= k < |s| ==> MatchAt(Bold, s, k).None?
  {
    forall k | 8 <= k < |s| ensures MatchAt(Bold, s, k).None? {
      if k + 2 <= |s| {
        if s[k] == '*' {
          assert s[k + 1] != '*';
          assert s[k..k + 2][1] == s[k + 1];
        } else {
          NotOccursAt(s, k, "**");
        }
      }
    }
  }

  /** Line 19 on the first example: one italic span, unwrapped. */
  lemma ItalicStepExample(s: seq<char>)
    requires s == "bold and *italic*"
    ensures Replace(Italic, s) == "bold and italic"
  {
    ItalicSpanExample(s);
    forall k | 0 <= k < 9 ensures MatchAt(Italic, s, k).None? {
      assert s[k] != '*';
    }
    ReplaceFromVerbatim(Italic, s, 0, 9);
    MatchStep(Italic, s, 9, Match(17, "italic"));
    ScanAtEnd(Italic, s);
    ItalicRestText(s);
  }

  lemma ItalicRestText(s: seq<char>)
    requires s == "bold and *italic*"
    ensures s[0..9] + ("italic" + []) == "bold and italic"
  {
    assert s[0..9] == "bold and ";
  }

  lemma ItalicSpanExample(s: seq<char>)
    requires s == "bold and *italic*"
    ensures MatchAt(Italic, s, 9) == Some(Match(17, "italic"))
  {
    assert OccursAt(s, 16, "*");
    assert FindClose(s, 16, "*", false) == Some(16);
    FindCloseStep(s, 15, "*");
    FindCloseStep(s, 14, "*");
    FindCloseStep(s, 13, "*");
    FindCloseStep(s, 12, "*");
    FindCloseStep(s, 11, "*");
    FindCloseStep(s, 10, "*");
    assert s[10..16] == "italic";
  }

  /** Neither a bullet nor a number opens the text. */
  lemma NoItemOpening(s: seq<char>)
    requires s != [] && !IsDigit(s[0]) && !IsListMarker(s[0])
    ensures !OpensWithItem(s)
  {
    forall d | 0 < d < |s| ensures !NumberOpening(s, d) {
      assert !IsDigit(s[0]);
    }
  }

  /** ASCII letters and the punctuation the examples keep: none is whitespace, a marker or special. */
  predicate IsWordChar(c: char) {
    'a' <= c <= 'z' || 'A' <= c <= 'Z' || c == '-' || c == '.' || c == '"'
  }

  /** Words of `IsWordChar`s separated by single ASCII spaces. */
  predicate Words(s: seq<char>) {
    && (s != [] ==> IsWordChar(s[0]) && IsWordChar(s[|s| - 1]))
    && forall k :: 0 <= k < |s| ==> IsWordChar(s[k]) || SpaceBeforeWord(s, k)
  }

  predicate SpaceBeforeWord(s: seq<char>, k: int)
    requires 0 <= k < |s|
  {
    s[k] == ' ' && k + 1 < |s| && IsWordChar(s[k + 1])
  }

  /** Such words meet every condition of `CleanTextIsFixed` except the one about how the text opens. */
  lemma WordsAreClean(s: seq<char>)
    requires Words(s)
    ensures SingleSpaced(s) && Trimmed(s) && NoSpecials(s)
    ensures '*' !in s && '`' !in s && '#' !in s
  {
    TransliterationShape();
    forall c | c in s ensures NotSpecial(c) && c != '*' && c != '`' && c != '#' {
      var k :| 0 <= k < |s| && s[k] == c;
      assert IsWordChar(s[k]) || SpaceBeforeWord(s, k);
    }
    forall k | 0 <= k < |s| && IsSpace(s[k])
      ensures s[k] == ' ' && (k + 1 < |s| ==> !IsSpace(s[k + 1]))
    {
      assert IsWordChar(s[k]) || SpaceBeforeWord(s, k);
    }
  }

  /** Bold and italic markers come off and the words stay. */
  lemma BoldAndItalicExample(s: seq<char>)
    requires s == "**bold** and *italic*"
    ensures CleanContent(s) == "bold and italic"
  {
    var u := "bold and *italic*";
    BoldStepExample(s);
    ItalicStepExample(u);
    PlainWordsExample("bold and italic");
  }

  /** The plain words the first example reduces to are already clean. */
  lemma PlainWordsExample(t: seq<char>)
    requires t == "bold and italic"
    ensures Replace(Bold, t) == t && Replace(Italic, t) == t
    ensures CleanContent(t) == t
  {
    assert Words(t);
    WordsAreClean(t);
    NoItemOpening(t);
    PairedStepFixed(Bold, t);
    PairedStepFixed(Italic, t);
    CleanTextIsFixed(t);
  }

  /** Accents, a dash and an ellipsis become plain ASCII. */
  lemma AccentsExample(s: seq<char>, t: seq<char>)
    requires s == "caf\U{00E9} \U{2013} na\U{00EF}ve\U{2026}"
    requires t == "cafe - naive..."
    ensures CleanContent(s) == t
  {
    NoItemOpening(s);
    MarkdownFixed(s);
    AccentsSymbolsExample(s, t);
    AsciiWordsExample(t);
    TidyWordsExample(t);
  }

  lemma AsciiWordsExample(t: seq<char>)
    requires t == "cafe - naive..."
    ensures Words(t)
  {
  }

  lemma StraightenQuotesFixed(s: seq<char>)
    requires forall k :: 0 <= k < |s| ==> !IsQuote(s[k])
    ensures StraightenQuotes(s) == s
  {
  }

  /** Lines 27-42 on the second example. */
  lemma AccentsSymbolsExample(s: seq<char>, t: seq<char>)
    requires s == "caf\U{00E9} \U{2013} na\U{00EF}ve\U{2026}"
    requires t == "cafe - naive..."
    ensures NormalizeSymbols(s) == t
  {
    assert StraightenQuotes(StripZeroWidth(s)) == s by {
      assert forall k :: 0 <= k < |s| ==> !IsZeroWidth(s[k]) && !IsQuote(s[k]);
      StripZeroWidthFixed(s);
      StraightenQuotesFixed(s);
    }
    var d := "caf\U{00E9} - na\U{00EF}ve\U{2026}";
    DashExample(s, d);
    var e := "caf\U{00E9} - na\U{00EF}ve...";
    EllipsisExample(d, e);
    TransliterateExample(e, t);
  }

  lemma DashExample(s: seq<char>, d: seq<char>)
    requires s == "caf\U{00E9} \U{2013} na\U{00EF}ve\U{2026}"
    requires d == "caf\U{00E9} - na\U{00EF}ve\U{2026}"
    ensures PlainDashes(s) == d
  {
    forall k | 0 <= k < |s| ensures PlainDashes(s)[k] == d[k] {
      DashAt(s, d, k);
    }
  }

  lemma DashAt(s: seq<char>, d: seq<char>, k: nat)
    requires s == "caf\U{00E9} \U{2013} na\U{00EF}ve\U{2026}"
    requires d == "caf\U{00E9} - na\U{00EF}ve\U{2026}"
    requires k < |s|
    ensures (if IsDash(s[k]) then '-' else s[k]) == d[k]
  {
  }

  lemma EllipsisExample(d: seq<char>, e: seq<char>)
    requires d == "caf\U{00E9} - na\U{00EF}ve\U{2026}"
    requires e == "caf\U{00E9} - na\U{00EF}ve..."
    ensures ExpandEllipsis(d) == e
  {
    var a, b := d[..12], [Ellipsis];
    assert d == a + b;
    ExpandEllipsisAppend(a, b);
    ExpandEllipsisFixed(a);
    assert b[1..] == [];
    assert ExpandEllipsis(b) == "...";
    assert a + "..." == e;
  }

  lemma TransliterateExample(e: seq<char>, t: seq<char>)
    requires e == "caf\U{00E9} - na\U{00EF}ve..."
    requires t == "cafe - naive..."
    ensures Transliterate(e) == t
  {
    forall k | 0 <= k < |e| ensures Transliterate(e)[k] == t[k] {
      TableAt(e, t, k);
    }
  }

  lemma TableAt(e: seq<char>, t: seq<char>, k: nat)
    requires e == "caf\U{00E9} - na\U{00EF}ve..."
    requires t == "cafe - naive..."
    requires k < |e|
    ensures (if e[k] in Transliteration then Transliteration[e[k]] else e[k]) == t[k]
  {
    if k == 3 {
      assert Transliteration['\U{00E9}'] == 'e';
    } else if k == 9 {
      assert Transliteration['\U{00EF}'] == 'i';
    } else {
      assert e[k] < '\U{0080}' && e[k] == t[k];
      AsciiNotInTable(e[k]);
    }
  }

  lemma AsciiNotInTable(c: char)
    requires c < '\U{0080}'
    ensures c !in Transliteration
  {
    TransliterationShape();
  }

  /** Single-spaced words pass the whitespace stage unchanged. */
  lemma TidyWordsExample(t: seq<char>)
    requires Words(t)
    ensures TidyWhitespace(t) == t
  {
    WordsAreClean(t);
    TidyFixed(t);
  }

  /** ASCII text without the apostrophe has none of the special characters. */
  lemma AsciiNoSpecials(s: seq<char>)
    requires forall k :: 0 <= k < |s| ==> s[k] < '\U{0080}' && s[k] != '\''
    ensures NoSpecials(s)
  {
    forall c | c in s ensures NotSpecial(c) {
      var k :| 0 <= k < |s| && s[k] == c;
      AsciiNotInTable(c);
    }
  }

  /** ASCII text, single-spaced and trimmed, passes both later stages unchanged. */
  lemma AsciiTailFixed(s: seq<char>)
    requires forall k :: 0 <= k < |s| ==> s[k] < '\U{0080}' && s[k] != '\''
    requires SingleSpaced(s) && Trimmed(s)
    ensures TidyWhitespace(NormalizeSymbols(s)) == s
  {
    AsciiNoSpecials(s);
    SymbolsFixed(s);
    TidyFixed(s);
  }

  // ---------------------------------------------------------------------------
  // Not idempotent
  // ---------------------------------------------------------------------------

  /**
    A zero-width space between `#` and a space hides a header from line 22;
    line 27 then deletes it, and the header marker survives the first pass.
   */
  lemma HiddenHeaderExample(s: seq<char>, t: seq<char>)
    requires s == "#\U{200B} x" && t == "# x"
    ensures CleanContent(s) == t
  {
    HiddenHeaderMarkdown(s);
    HiddenHeaderSymbols(s, t);
    HashSpaceClean(t);
  }

  lemma HashSpaceClean(t: seq<char>)
    requires t == "# x"
    ensures TidyWhitespace(NormalizeSymbols(t)) == t
  {
    AsciiTailFixed(t);
  }

  lemma HiddenHeaderMarkdown(s: seq<char>)
    requires s == "#\U{200B} x"
    ensures StripMarkdown(s) == s
  {
    PairedStepFixed(Bold, s);
    PairedStepFixed(Italic, s);
    PairedStepFixed(InlineCode, s);
    PairedStepFixed(FencedCode, s);
    forall k | 0 <= k < |s| ensures MatchAt(Header, s, k).None? {
      if k == 0 {
        assert RunEnd(s, 1, IsHash) == 1;
        assert !IsSpace(s[1]);
      } else {
        assert !IsHash(s[k]);
      }
    }
    NoMatchIdentity(Header, s);
    NoItemOpening(s);
    ItemStepsFixed(s);
  }

  lemma HiddenHeaderSymbols(s: seq<char>, t: seq<char>)
    requires s == "#\U{200B} x" && t == "# x"
    ensures NormalizeSymbols(s) == NormalizeSymbols(t)
  {
    ZeroWidthSpaceGoes(s, t);
    StripZeroWidthFixed(t);
  }

  lemma ZeroWidthSpaceGoes(s: seq<char>, t: seq<char>)
    requires s == "#\U{200B} x" && t == "# x"
    ensures StripZeroWidth(s) == t
  {
    DropSecond(s);
    var v := s[2..];
    assert v == t[1..];
    assert !IsZeroWidth(v[0]) && !IsZeroWidth(v[1]);
    StripZeroWidthFixed(v);
    ConsSlice(t, 0, |t|);
  }

  /** A zero-width character in second place is all the stage removes from the front. */
  lemma DropSecond(s: seq<char>)
    requires |s| >= 2 && !IsZeroWidth(s[0]) && IsZeroWidth(s[1])
    ensures StripZeroWidth(s) == [s[0]] + StripZeroWidth(s[2..])
  {
    ZeroWidthKeepsFirst(s);
    ZeroWidthDropsAt(s, 1);
  }

  lemma ZeroWidthKeepsFirst(s: seq<char>)
    requires s != [] && !IsZeroWidth(s[0])
    ensures StripZeroWidth(s) == [s[0]] + StripZeroWidth(s[1..])
  {
  }

  lemma ZeroWidthDropsAt(s: seq<char>, i: nat)
    requires i < |s| && IsZeroWidth(s[i])
    ensures StripZeroWidth(s[i..]) == StripZeroWidth(s[i + 1..])
  {
    assert s[i..][1..] == s[i + 1..];
  }

  /** On the second pass line 22 sees `# ` and strips it. */
  lemma ExposedHeaderExample(t: seq<char>, u: seq<char>)
    requires t == "# x" && u == "x"
    ensures CleanContent(t) == u
  {
    ExposedHeaderMarkdown(t, u);
    LetterClean(u);
  }

  lemma ExposedHeaderMarkdown(t: seq<char>, u: seq<char>)
    requires t == "# x" && u == "x"
    ensures StripMarkdown(t) == u
  {
    PairedStepFixed(Bold, t);
    PairedStepFixed(Italic, t);
    PairedStepFixed(InlineCode, t);
    PairedStepFixed(FencedCode, t);
    ExposedHeaderStep(t, u);
    NoItemOpening(u);
    ItemStepsFixed(u);
  }

  /** A lone lower-case letter passes the last two stages unchanged. */
  lemma LetterClean(u: seq<char>)
    requires u == "x"
    ensures TidyWhitespace(NormalizeSymbols(u)) == u
  {
    AsciiTailFixed(u);
  }

  lemma ExposedHeaderStep(t: seq<char>, u: seq<char>)
    requires t == "# x" && u == "x"
    ensures Replace(Header, t) == u
  {
    ExposedHeaderMatches(t);
    MatchStep(Header, t, 0, Match(2, ""));
    CopyStep(Header, t, 2);
    ScanAtEnd(Header, t);
    assert "" + ([t[2]] + []) == u;
  }

  lemma ExposedHeaderMatches(t: seq<char>)
    requires t == "# x"
    ensures MatchAt(Header, t, 0) == Some(Match(2, "")) && MatchAt(Header, t, 2).None?
  {
    assert RunEnd(t, 1, IsHash) == 1;
  }

  /**
    `cleanContent` is not idempotent: cleaning the cleaned text of
    `"#\u200B x"` changes it again.
   */
  lemma NotIdempotent(s: seq<char>)
    requires s == "#\U{200B} x"
    ensures CleanContent(CleanContent(s)) != CleanContent(s)
  {
    HiddenHeaderExample(s, "# x");
    ExposedHeaderExample("# x", "x");
  }

  /** Line 22 is not anchored to the start of a line: a `#` and a space inside a sentence go too. */
  lemma MidLineHeaderExample(s: seq<char>, u: seq<char>)
    requires s == "C# is" && u == "Cis"
    ensures CleanContent(s) == u
  {
    MidLineHeaderMarkdown(s, u);
    WordClean(u);
  }

  lemma MidLineHeaderMarkdown(s: seq<char>, u: seq<char>)
    requires s == "C# is" && u == "Cis"
    ensures StripMarkdown(s) == u
  {
    PairedStepFixed(Bold, s);
    PairedStepFixed(Italic, s);
    PairedStepFixed(InlineCode, s);
    PairedStepFixed(FencedCode, s);
    MidLineHeaderStep(s, u);
    NoItemOpening(u);
    ItemStepsFixed(u);
  }

  lemma WordClean(u: seq<char>)
    requires u == "Cis"
    ensures TidyWhitespace(NormalizeSymbols(u)) == u
  {
    AsciiTailFixed(u);
  }

  lemma MidLineHeaderStep(s: seq<char>, u: seq<char>)
    requires s == "C# is" && u == "Cis"
    ensures Replace(Header, s) == u
  {
    MidLineMatches(s);
    CopyStep(Header, s, 0);
    MatchStep(Header, s, 1, Match(3, ""));
    ReplaceFromVerbatim(Header, s, 3, 5);
    ScanAtEnd(Header, s);
    MidLineText(s, u);
  }

  lemma MidLineMatches(s: seq<char>)
    requires s == "C# is"
    ensures MatchAt(Header, s, 0).None? && MatchAt(Header, s, 1) == Some(Match(3, ""))
    ensures MatchAt(Header, s, 3).None? && MatchAt(Header, s, 4).None?
  {
    assert RunEnd(s, 2, IsHash) == 2;
  }

  lemma MidLineText(s: seq<char>, u: seq<char>)
    requires s == "C# is" && u == "Cis"
    ensures [s[0]] + ("" + (s[3..5] + [])) == u
  {
    assert s[3..5] == "is";
  }

  /**
    A one-line fenced block keeps its content: line 20 pairs the backticks
    first, so line 21 never sees a fence.
   */
  lemma FencedBlockExample(s: seq<char>, u: seq<char>)
    requires s == "```x```" && u == "x"
    ensures CleanContent(s) == u
  {
    FencedBlockMarkdown(s, u);
    LetterClean(u);
  }

  lemma FencedBlockMarkdown(s: seq<char>, u: seq<char>)
    requires s == "```x```" && u == "x"
    ensures StripMarkdown(s) == u
  {
    PairedStepFixed(Bold, s);
    PairedStepFixed(Italic, s);
    FencedInlineStep(s, u);
    FencedStepIsDead(s);
    PairedStepFixed(Bold, u);
    PairedStepFixed(Italic, u);
    PairedStepFixed(InlineCode, u);
    NoItemOpening(u);
    MarkdownFixed(u);
  }

  lemma FencedInlineStep(s: seq<char>, u: seq<char>)
    requires s == "```x```" && u == "x"
    ensures Replace(InlineCode, s) == u
  {
    FencedInlineMatches(s);
    MatchStep(InlineCode, s, 0, Match(2, ""));
    MatchStep(InlineCode, s, 2, Match(5, "x"));
    MatchStep(InlineCode, s, 5, Match(7, ""));
    ScanAtEnd(InlineCode, s);
    assert "" + ("x" + ("" + [])) == u;
  }

  /** The backticks pair up as one empty span, one span around `x`, and another empty span. */
  lemma FencedInlineMatches(s: seq<char>)
    requires s == "```x```"
    ensures MatchAt(InlineCode, s, 0) == Some(Match(2, ""))
    ensures MatchAt(InlineCode, s, 2) == Some(Match(5, "x"))
    ensures MatchAt(InlineCode, s, 5) == Some(Match(7, ""))
  {
    assert OccursAt(s, 1, "`") && OccursAt(s, 4, "`") && OccursAt(s, 6, "`");
    FindCloseStep(s, 3, "`");
    assert FindClose(s, 4, "`", false) == Some(4);
    assert s[3..4] == "x";
  }

  /** Without `*`, backticks or `#`, the first five markdown steps change nothing. */
  lemma FirstStepsFixed(s: seq<char>)
    requires '*' !in s && '`' !in s && '#' !in s
    ensures Replace(Header, Replace(FencedCode, Replace(InlineCode, Replace(Italic, Replace(Bold, s))))) == s
  {
    PairedStepFixed(Bold, s);
    PairedStepFixed(Italic, s);
    PairedStepFixed(InlineCode, s);
    PairedStepFixed(FencedCode, s);
    HeaderStepFixed(s);
  }

  /** Without digits, the numbered-item pattern finds nothing. */
  lemma NumberedStepFixed(s: seq<char>)
    requires forall k :: 0 <= k < |s| ==> !IsDigit(s[k])
    ensures Replace(NumberedItem, s) == s
  {
    forall k | 0 <= k < |s| ensures MatchAt(NumberedItem, s, k).None? {
      var w := RunEnd(s, k, IsSpace);
      assert w < |s| ==> !IsDigit(s[w]);
    }
    NoMatchIdentity(NumberedItem, s);
  }

  /** Bullets at the start of each line go, and the line break folds into a space. */
  lemma BulletListExample(s: seq<char>, w: seq<char>)
    requires s == "- apples\n- pears" && w == "apples pears"
    ensures CleanContent(s) == w
  {
    BulletMarkdown(s, "apples\npears");
    LinesTail("apples\npears", w);
  }

  lemma BulletMarkdown(s: seq<char>, v: seq<char>)
    requires s == "- apples\n- pears" && v == "apples\npears"
    ensures StripMarkdown(s) == v
  {
    FirstStepsFixed(s);
    BulletStep(s, v);
    NoDigitsExample(v);
    NumberedStepFixed(v);
  }

  lemma NoDigitsExample(v: seq<char>)
    requires v == "apples\npears"
    ensures forall k :: 0 <= k < |v| ==> !IsDigit(v[k])
  {
  }

  lemma LinesTail(v: seq<char>, w: seq<char>)
    requires v == "apples\npears" && w == "apples pears"
    ensures TidyWhitespace(NormalizeSymbols(v)) == w
  {
    assert forall k :: 0 <= k < |v| ==> v[k] < '\U{0080}' && v[k] != '\'';
    AsciiNoSpecials(v);
    SymbolsFixed(v);
    LineBreakStep(v, w);
    AsciiWords(w);
    WordsAreClean(w);
    SingleSpacedFixed(w, 0);
    assert w[0..] == w;
    assert TidyWhitespace(v) == TidyWhitespace(w);
    TidyFixed(w);
  }

  lemma AsciiWords(w: seq<char>)
    requires w == "apples pears"
    ensures Words(w)
  {
  }

  lemma BulletStep(s: seq<char>, v: seq<char>)
    requires s == "- apples\n- pears" && v == "apples\npears"
    ensures Replace(ListItem, s) == v
  {
    BulletMatches(s);
    forall k | 2 <= k < 9 || 11 <= k < |s| ensures MatchAt(ListItem, s, k).None? {
      assert !IsLineTerminator(s[k - 1]);
    }
    MatchStep(ListItem, s, 0, Match(2, ""));
    ReplaceFromVerbatim(ListItem, s, 2, 9);
    MatchStep(ListItem, s, 9, Match(11, ""));
    ReplaceFromVerbatim(ListItem, s, 11, |s|);
    ScanAtEnd(ListItem, s);
    BulletRestText(s, v);
  }

  lemma BulletMatches(s: seq<char>)
    requires s == "- apples\n- pears"
    ensures MatchAt(ListItem, s, 0) == Some(Match(2, ""))
    ensures MatchAt(ListItem, s, 9) == Some(Match(11, ""))
  {
    assert RunEnd(s, 0, IsSpace) == 0 && RunEnd(s, 9, IsSpace) == 9;
  }

  lemma BulletRestText(s: seq<char>, v: seq<char>)
    requires s == "- apples\n- pears" && v == "apples\npears"
    ensures "" + (s[2..9] + ("" + (s[11..|s|] + []))) == v
  {
    assert s[2..9] == "apples\n" && s[11..|s|] == "pears";
  }

  lemma LineBreakStep(v: seq<char>, w: seq<char>)
    requires v == "apples\npears" && w == "apples pears"
    ensures Replace(SpaceRun, v) == w
  {
    forall k | 0 <= k < 6 || 7 <= k < |v| ensures MatchAt(SpaceRun, v, k).None? {
      assert !IsSpace(v[k]);
    }
    LineBreakMatch(v);
    ReplaceFromVerbatim(SpaceRun, v, 0, 6);
    MatchStep(SpaceRun, v, 6, Match(7, " "));
    ReplaceFromVerbatim(SpaceRun, v, 7, |v|);
    ScanAtEnd(SpaceRun, v);
    LineBreakText(v, w);
  }

  lemma LineBreakMatch(v: seq<char>)
    requires v == "apples\npears"
    ensures MatchAt(SpaceRun, v, 6) == Some(Match(7, " "))
  {
    assert RunEnd(v, 7, IsSpace) == 7;
  }

  lemma LineBreakText(v: seq<char>, w: seq<char>)
    requires v == "apples\npears" && w == "apples pears"
    ensures v[0..6] + (" " + (v[7..|v|] + [])) == w
  {
    assert v[0..6] == "apples" && v[7..|v|] == "pears";
  }

  // ---------------------------------------------------------------------------
  // One list marker per line per pass
  // ---------------------------------------------------------------------------

  /**
    Line 23 strips one marker per line: after the first `- ` the scan is no
    longer at the start of a line, so the second marker stays.
   */
  lemma NestedBulletExample(s: seq<char>, v: seq<char>)
    requires s == "- - x" && v == "- x"
    ensures CleanContent(s) == v
  {
    NestedBulletMarkdown(s, v);
    AsciiTailFixed(v);
  }

  lemma NestedBulletMarkdown(s: seq<char>, v: seq<char>)
    requires s == "- - x" && v == "- x"
    ensures StripMarkdown(s) == v
  {
    FirstStepsFixed(s);
    NestedBulletStep(s, v);
    assert forall k :: 0 <= k < |v| ==> !IsDigit(v[k]);
    NumberedStepFixed(v);
  }

  lemma NestedBulletStep(s: seq<char>, v: seq<char>)
    requires s == "- - x" && v == "- x"
    ensures Replace(ListItem, s) == v
  {
    NestedBulletMatches(s);
    forall k | 2 <= k < |s| ensures MatchAt(ListItem, s, k).None? {
      assert !IsLineTerminator(s[k - 1]);
    }
    MatchStep(ListItem, s, 0, Match(2, ""));
    ReplaceFromVerbatim(ListItem, s, 2, |s|);
    ScanAtEnd(ListItem, s);
    assert s[2..|s|] == v;
  }

  lemma NestedBulletMatches(s: seq<char>)
    requires s == "- - x"
    ensures MatchAt(ListItem, s, 0) == Some(Match(2, ""))
  {
    assert RunEnd(s, 0, IsSpace) == 0;
  }
}

=== FILE: input_box.dfy ===
/**
  The input box's handlers (InputBox.tsx:14-26, 53-56, 69-70). Each handler
  is a function from the box's text and the loading flag to what it leaves
  behind: the new text, and the message handed to `onSend`, if any.
 */
module InputBox {
  import opened Wrappers
  import opened JsText

  datatype Outcome = Outcome(input: seq<char>, sent: Option<seq<char>>)

  /** Lines 14-19: send the trimmed text and clear the box, unless it is blank or a reply is pending. */
  function HandleSubmit(input: seq<char>, isLoading: bool): (r: Outcome)
    ensures r.sent.Some? <==> Trim(input) != [] && !isLoading
    ensures r.sent.Some? ==> r.sent.value == Trim(input) && r.input == []
    ensures r.sent.Some? ==> r.sent.value != [] && Trim(r.sent.value) == r.sent.value
    ensures r.sent.None? ==> r.input == input
  {
    if Trim(input) == [] || isLoading then Outcome(input, None)
    else
      TrimIdempotent(input);
      Outcome([], Some(Trim(input)))
  }

  /** The result of a key press: whether the default (a newline) was suppressed, and what happened. */
  datatype KeyResult = KeyResult(prevented: bool, outcome: Outcome)

  /** Lines 21-26: Enter without Shift submits instead of inserting a newline; any other key is left to the textarea. */
  function HandleKeyDown(key: seq<char>, shift: bool, input: seq<char>, isLoading: bool): (r: KeyResult)
    ensures r.prevented <==> key == "Enter" && !shift
    ensures r.prevented ==> r.outcome == HandleSubmit(input, isLoading)
    ensures !r.prevented ==> r.outcome == Outcome(input, None)
  {
    if key == "Enter" && !shift then KeyResult(true, HandleSubmit(input, isLoading))
    else KeyResult(false, Outcome(input, None))
  }

  /** Line 70: the button is disabled only when the box is blank and nothing is pending. */
  predicate SendDisabled(input: seq<char>, isLoading: bool) {
    Trim(input) == [] && !isLoading
  }

  /**
    Lines 69-70: a click on the button. A disabled button fires nothing;
    an enabled one runs `handleSubmit`. While loading the button stays
    enabled (it shows a stop icon) but the click sends nothing.
   */
  function Click(input: seq<char>, isLoading: bool): (r: Outcome)
    ensures r == HandleSubmit(input, isLoading)
    ensures isLoading ==> !SendDisabled(input, isLoading) && r == Outcome(input, None)
  {
    if SendDisabled(input, isLoading) then Outcome(input, None) else HandleSubmit(input, isLoading)
  }

  /** Lines 53 and 56: typing replaces the text, but a disabled textarea (while loading) takes no input. */
  function TypeText(input: seq<char>, value: seq<char>, isLoading: bool): (r: seq<char>)
    ensures isLoading ==> r == input
    ensures !isLoading ==> r == value
  {
    if isLoading then input else value
  }

  /** Enter and the button are two routes to the same submit: they never disagree. */
  lemma EnterMatchesClick(input: seq<char>, isLoading: bool)
    ensures HandleKeyDown("Enter", false, input, isLoading).outcome == Click(input, isLoading)
  {
  }

  /** Blank text, whatever surrounds it, is never sent, and the box keeps it. */
  lemma BlankIsNeverSent(input: seq<char>, isLoading: bool)
    requires AllSpace(input)
    ensures HandleSubmit(input, isLoading) == Outcome(input, None)
  {
    BlankIffAllSpace(input);
  }
}

=== FILE: js_text.dfy ===
/**
  The pieces of JavaScript string semantics the front end relies on: the
  character class `\s`, line terminators (what `.` refuses and what `^` in
  multiline mode follows), `\d`, and `String.prototype.trim`.

  Characters are Unicode scalar values. JavaScript strings are UTF-16 code
  units, but none of the patterns below names a surrogate, so a character
  outside the Basic Multilingual Plane behaves the same either way: it is
  passed through untouched.
 */
module JsText {

  /** `\s`: WhiteSpace and LineTerminator of ECMAScript (section 22.2.2.9 of ECMA-262). */
  predicate IsSpace(c: char) {
    || c == '\t' || c == '\n' || c == '\U{000B}' || c == '\U{000C}' || c == '\r' || c == ' '
    || c == '\U{00A0}' || c == '\U{1680}' || ('\U{2000}' <= c <= '\U{200A}')
    || c == '\U{2028}' || c == '\U{2029}' || c == '\U{202F}' || c == '\U{205F}'
    || c == '\U{3000}' || c == '\U{FEFF}'
  }

  /** LineTerminator: LF, CR, LINE SEPARATOR, PARAGRAPH SEPARATOR. */
  predicate IsLineTerminator(c: char) {
    c == '\n' || c == '\r' || c == '\U{2028}' || c == '\U{2029}'
  }

  /** `\d`: ASCII digits only. */
  predicate IsDigit(c: char) {
    '0' <= c <= '9'
  }

  predicate AllSpace(s: seq<char>) {
    forall i :: 0 <= i < |s| ==> IsSpace(s[i])
  }

  /** The characters after position `j` up to, not including, the next line terminator. */
  function LineRest(s: seq<char>, j: nat): (r: seq<char>)
    requires j <= |s|
    ensures |r| <= |s| - j
    decreases |s| - j
  {
    if j == |s| || IsLineTerminator(s[j]) then [] else [s[j]] + LineRest(s, j + 1)
  }

  /** Cutting `s[i..]` at `e` and joining the halves gives it back. */
  lemma SplitAt(s: seq<char>, i: nat, e: nat)
    requires i <= e <= |s|
    ensures s[i..e] + s[e..] == s[i..]
  {
  }

  lemma ConcatAssoc(a: seq<char>, b: seq<char>, c: seq<char>)
    ensures a + (b + c) == (a + b) + c
  {
  }

  /** `s[j..t]` is its first character followed by the rest. */
  lemma ConsSlice(s: seq<char>, j: nat, t: nat)
    requires j < t <= |s|
    ensures s[j..t] == [s[j]] + s[j + 1..t]
  {
  }

  /** The rest of a line is a stretch of the text that holds no terminator and ends at one or at the end. */
  lemma {:induction false} LineRestIsLine(s: seq<char>, j: nat)
    requires j <= |s|
    ensures LineRest(s, j) == s[j..j + |LineRest(s, j)|]
    ensures forall k :: 0 <= k < |LineRest(s, j)| ==> !IsLineTerminator(LineRest(s, j)[k])
    ensures j + |LineRest(s, j)| == |s| || IsLineTerminator(s[j + |LineRest(s, j)|])
    decreases |s| - j
  {
    if j < |s| && !IsLineTerminator(s[j]) {
      LineRestIsLine(s, j + 1);
    }
  }

  /** Every occurrence of `m` in `s` is the last one on its line. */
  ghost predicate AtMostOnePerLine(s: seq<char>, m: char) {
    forall i :: 0 <= i < |s| && s[i] == m ==> m !in LineRest(s, i + 1)
  }

  /** Every whitespace character is an ASCII space, and no two of them are adjacent. */
  predicate SingleSpaced(s: seq<char>) {
    forall i :: 0 <= i < |s| && IsSpace(s[i]) ==> s[i] == ' ' && (i + 1 < |s| ==> !IsSpace(s[i + 1]))
  }

  /** Leading whitespace removed (the first half of `trim`). */
  function TrimStart(s: seq<char>): (r: seq<char>)
    ensures |r| <= |s| && r == s[|s| - |r|..]
    ensures AllSpace(s[..|s| - |r|])
    ensures r == [] || !IsSpace(r[0])
  {
    if s == [] || !IsSpace(s[0]) then s else TrimStart(s[1..])
  }

  /** Trailing whitespace removed (the second half of `trim`). */
  function TrimEnd(s: seq<char>): (r: seq<char>)
    ensures |r| <= |s| && r == s[..|r|]
    ensures AllSpace(s[|r|..])
    ensures r == [] || !IsSpace(r[|r| - 1])
  {
    if s == [] || !IsSpace(s[|s| - 1]) then s else TrimEnd(s[..|s| - 1])
  }

  /** `r` is `s` with nothing but whitespace taken off its two ends. */
  ghost predicate TrimmedFrom(r: seq<char>, s: seq<char>) {
    exists a :: TrimmedAt(r, s, a)
  }

  /** `r` sits at offset `a` of `s` with only whitespace before and after it. */
  predicate TrimmedAt(r: seq<char>, s: seq<char>, a: int) {
    0 <= a <= |s| - |r| && r == s[a..a + |r|] && AllSpace(s[..a]) && AllSpace(s[a + |r|..])
  }

  /** Neither end is whitespace. */
  predicate Trimmed(r: seq<char>) {
    r == [] || (!IsSpace(r[0]) && !IsSpace(r[|r| - 1]))
  }

  /** `String.prototype.trim`. */
  function Trim(s: seq<char>): (r: seq<char>)
    ensures TrimmedFrom(r, s)
    ensures Trimmed(r)
  {
    var t := TrimStart(s);
    var r := TrimEnd(t);
    var a := |s| - |t|;
    assert s[a + |r|..] == t[|r|..];
    assert TrimmedAt(r, s, a);
    r
  }

  /** A character between a whitespace prefix and a whitespace suffix of `s`. */
  lemma SpaceAt(s: seq<char>, a: nat, k: nat)
    requires a <= |s| && k < |s|
    requires AllSpace(s[..a]) && AllSpace(s[a..])
    ensures IsSpace(s[k])
  {
    if k < a { assert s[..a][k] == s[k]; } else { assert s[a..][k - a] == s[k]; }
  }

  /** `r` found at `a` inside `s`, with only whitespace around it and none at its ends, starts and ends where `t` does. */
  lemma SameSlice(s: seq<char>, r: seq<char>, a: nat, t: seq<char>, b: nat)
    requires 0 < |r| && TrimmedAt(r, s, a) && Trimmed(r)
    requires 0 < |t| && TrimmedAt(t, s, b) && Trimmed(t)
    ensures a == b && |r| == |t|
  {
    assert r[0] == s[a] && t[0] == s[b];
    var e1, e2 := a + |r|, b + |t|;
    assert r[|r| - 1] == s[e1 - 1] && t[|t| - 1] == s[e2 - 1];
  }

  /** If `s` trims to nothing at some offset, every way of trimming it yields nothing. */
  lemma EmptyTrimOnly(s: seq<char>, a: nat, t: seq<char>, b: nat)
    requires TrimmedAt([], s, a) && TrimmedAt(t, s, b) && Trimmed(t)
    ensures t == []
  {
    if t != [] {
      assert s[a..] == s[a + 0..];
      SpaceAt(s, a, b);
    }
  }

  /** The two conditions above pin the result down: there is only one way to trim. */
  lemma TrimUnique(s: seq<char>, r: seq<char>)
    requires TrimmedFrom(r, s) && Trimmed(r)
    ensures r == Trim(s)
  {
    var a :| TrimmedAt(r, s, a);
    var t := Trim(s);
    var b :| TrimmedAt(t, s, b);
    if r == [] {
      EmptyTrimOnly(s, a, t, b);
    } else if t == [] {
      EmptyTrimOnly(s, b, r, a);
    } else {
      SameSlice(s, r, a, t, b);
    }
  }

  /** Trimming twice is trimming once. */
  lemma TrimIdempotent(s: seq<char>)
    ensures Trim(Trim(s)) == Trim(s)
  {
    var r := Trim(s);
    assert r[..0] == [] && r[|r|..] == [];
    assert TrimmedAt(r, r, 0);
    TrimUnique(r, r);
  }

  /** Text trims to nothing exactly when it is all whitespace. */
  lemma BlankIffAllSpace(s: seq<char>)
    ensures Trim(s) == [] <==> AllSpace(s)
  {
    if AllSpace(s) {
      assert s[..0] == [] && s[0..] == s;
      assert TrimmedAt([], s, 0);
      TrimUnique(s, []);
    }
    if Trim(s) == [] {
      var a :| TrimmedAt([], s, a);
      assert s[a + 0..] == s[a..];
      forall k | 0 <= k < |s|
        ensures IsSpace(s[k])
      {
        SpaceAt(s, a, k);
      }
    }
  }
}

=== FILE: messages.dfy ===
/** The chat message record shared by every component (types.ts:1-6). */
module Messages {

  datatype Sender = User | Bot

  /**
    One message. `id` comes from a supply of fresh identifiers, which is the
    role `uuidv4()` plays; `timestamp` is the opaque value of `Date.now()`.
    `text` is stored as received: cleaning happens only when it is shown.
   */
  datatype Message = Message(id: nat, sender: Sender, text: seq<char>, timestamp: int)
}

=== FILE: regex.dfy ===
/**
  The multi-character regular expressions of the bot-text cleaner, and
  JavaScript's global `String.prototype.replace` over them.

  Each pattern has two descriptions: `Candidate` says declaratively which
  stretches `s[i..e]` the expression can match at `i` (ignoring which one the
  backtracking engine prefers), and `MatchAt` computes the one JavaScript
  picks. `MatchAt` is proved to return a candidate, and `MatchAtComplete`
  that it returns one whenever a candidate exists, and the preferred one:
  the shortest for a lazy `*?`, the longest for a greedy `+` or `*`.
 */
module Regex {
  import opened Wrappers
  import opened JsText

  /** The patterns, in the order the cleaner applies them (MessageBubble.tsx:18-24, 45-46). */
  datatype Pattern =
    | Bold          // /\*\*(.*?)\*\*/g   -> '$1'
    | Italic        // /\*(.*?)\*/g       -> '$1'
    | InlineCode    // /`(.*?)`/g         -> '$1'
    | FencedCode    // /```[\s\S]*?```/g  -> ''
    | Header        // /#{1,6}\s/g        -> ''
    | ListItem      // /^\s*[-*+]\s/gm    -> ''
    | NumberedItem  // /^\s*\d+\.\s/gm    -> ''
    | SpaceRun      // /\s+/g             -> ' '
    | BlankLines    // /\n\s*\n/g         -> '\n\n'

  /** A match ends (exclusively) at `end` and is replaced by `replacement`. */
  datatype Match = Match(end: nat, replacement: seq<char>)

  predicate IsHash(c: char) { c == '#' }

  predicate IsListMarker(c: char) { c == '-' || c == '*' || c == '+' }

  /** The lazy patterns; the others are greedy. */
  predicate Lazy(p: Pattern) {
    p.Bold? || p.Italic? || p.InlineCode? || p.FencedCode?
  }

  /** `w` occurs in `s` starting at `k`. */
  predicate OccursAt(s: seq<char>, k: int, w: seq<char>) {
    0 <= k && k + |w| <= |s| && s[k..k + |w|] == w
  }

  /** `.` (or, with `dotAll`, `[\s\S]`) can consume every character of `s[j..k]`. */
  predicate Dots(s: seq<char>, j: int, k: int, dotAll: bool)
    requires 0 <= j <= k <= |s|
  {
    dotAll || forall t :: j <= t < k ==> !IsLineTerminator(s[t])
  }

  /** `^` in multiline mode: the start of the input or just after a line terminator. */
  predicate AtLineStart(s: seq<char>, i: int)
    requires 0 <= i <= |s|
  {
    i == 0 || IsLineTerminator(s[i - 1])
  }

  /** The stretches `s[i..e]` the pattern can match at `i`, whichever the engine prefers. */
  ghost predicate Candidate(p: Pattern, s: seq<char>, i: int, e: int) {
    && 0 <= i < e <= |s|
    && match p
       case Bold =>
         i + 4 <= e && OccursAt(s, i, "**") && OccursAt(s, e - 2, "**") && Dots(s, i + 2, e - 2, false)
       case Italic =>
         i + 2 <= e && s[i] == '*' && s[e - 1] == '*' && Dots(s, i + 1, e - 1, false)
       case InlineCode =>
         i + 2 <= e && s[i] == '`' && s[e - 1] == '`' && Dots(s, i + 1, e - 1, false)
       case FencedCode =>
         i + 6 <= e && OccursAt(s, i, "```") && OccursAt(s, e - 3, "```")
       case Header =>
         i + 2 <= e <= i + 7 && (forall t :: i <= t < e - 1 ==> s[t] == '#') && IsSpace(s[e - 1])
       case ListItem =>
         && AtLineStart(s, i) && i + 2 <= e
         && (forall t :: i <= t < e - 2 ==> IsSpace(s[t]))
         && IsListMarker(s[e - 2]) && IsSpace(s[e - 1])
       case NumberedItem =>
         && AtLineStart(s, i) && i + 3 <= e
         && (forall t :: i <= t < e - 2 ==> IsSpace(s[t]) || IsDigit(s[t]))
         && (forall t, u :: i <= t < u < e - 2 && IsDigit(s[t]) ==> IsDigit(s[u]))
         && IsDigit(s[e - 3]) && s[e - 2] == '.' && IsSpace(s[e - 1])
       case SpaceRun =>
         forall t :: i <= t < e ==> IsSpace(s[t])
       case BlankLines =>
         i + 2 <= e && s[i] == '\n' && s[e - 1] == '\n' && (forall t :: i + 1 <= t < e - 1 ==> IsSpace(s[t]))
  }

  /** What a candidate is replaced by: the capture group `$1`, or the fixed text. */
  ghost function Replacement(p: Pattern, s: seq<char>, i: int, e: int): seq<char>
    requires Candidate(p, s, i, e)
  {
    match p
    case Bold => s[i + 2..e - 2]
    case Italic => s[i + 1..e - 1]
    case InlineCode => s[i + 1..e - 1]
    case SpaceRun => " "
    case BlankLines => "\n\n"
    case _ => ""
  }

  /**
    A lazy group followed by `close`, started at `j`: the first position from
    which `close` occurs, provided `.` can consume everything before it.
   */
  function FindClose(s: seq<char>, j: nat, close: seq<char>, dotAll: bool): (r: Option<nat>)
    requires j <= |s| && |close| > 0
    ensures r.Some? ==> j <= r.value && OccursAt(s, r.value, close) && Dots(s, j, r.value, dotAll)
    ensures forall k :: j <= k && OccursAt(s, k, close) && Dots(s, j, k, dotAll) ==> r.Some? && r.value <= k
    decreases |s| - j
  {
    if OccursAt(s, j, close) then Some(j)
    else if j < |s| && (dotAll || !IsLineTerminator(s[j])) then FindClose(s, j + 1, close, dotAll)
    else None
  }

  /** A greedy run of characters satisfying `p` from `j`: it stops at the first one that does not. */
  function RunEnd(s: seq<char>, j: nat, p: char -> bool): (e: nat)
    requires j <= |s|
    ensures j <= e <= |s|
    ensures forall t :: j <= t < e ==> p(s[t])
    ensures e == |s| || !p(s[e])
    decreases |s| - j
  {
    if j == |s| || !p(s[j]) then j else RunEnd(s, j + 1, p)
  }

  /** The last `\n` in `s[lo..hi]`: where a greedy `\s*` backs off to so that `\n` can follow. */
  function LastNewline(s: seq<char>, lo: nat, hi: nat): (r: Option<nat>)
    requires lo <= hi <= |s|
    ensures r.Some? ==> lo <= r.value < hi && s[r.value] == '\n'
    ensures forall t :: lo <= t < hi && s[t] == '\n' ==> r.Some? && t <= r.value
    decreases hi - lo
  {
    if lo == hi then None
    else if s[hi - 1] == '\n' then Some(hi - 1)
    else LastNewline(s, lo, hi - 1)
  }

  /** The match JavaScript's engine finds when it tries the pattern at position `i`. */
  function MatchAt(p: Pattern, s: seq<char>, i: nat): (r: Option<Match>)
    requires i < |s|
    ensures r.Some? ==> i < r.value.end <= |s|
    ensures r.Some? ==> Candidate(p, s, i, r.value.end) && r.value.replacement == Replacement(p, s, i, r.value.end)
  {
    match p
    case Bold => MatchBold(s, i)
    case Italic => MatchPaired(p, '*', s, i)
    case InlineCode => MatchPaired(p, '`', s, i)
    case FencedCode => MatchFenced(s, i)
    case Header => MatchHeader(s, i)
    case ListItem => MatchListItem(s, i)
    case NumberedItem => MatchNumberedItem(s, i)
    case SpaceRun => MatchSpaceRun(s, i)
    case BlankLines => MatchBlankLines(s, i)
  }

  function MatchBold(s: seq<char>, i: nat): (r: Option<Match>)
    requires i < |s|
    ensures r.Some? ==> i < r.value.end <= |s|
    ensures r.Some? ==> Candidate(Bold, s, i, r.value.end) && r.value.replacement == Replacement(Bold, s, i, r.value.end)
  {
    if !OccursAt(s, i, "**") then None
    else
      match FindClose(s, i + 2, "**", false)
      case Some(k) => Some(Match(k + 2, s[i + 2..k]))
      case None => None
  }

  /** `*(.*?)*` and `` `(.*?)` ``: one marker character on each side. */
  function MatchPaired(p: Pattern, m: char, s: seq<char>, i: nat): (r: Option<Match>)
    requires (p.Italic? && m == '*') || (p.InlineCode? && m == '`')
    requires i < |s|
    ensures r.Some? ==> i < r.value.end <= |s|
    ensures r.Some? ==> Candidate(p, s, i, r.value.end) && r.value.replacement == Replacement(p, s, i, r.value.end)
  {
    if s[i] != m then None
    else
      match FindClose(s, i + 1, [m], false)
      case Some(k) =>
        assert s[k] == s[k..k + 1][0];
        Some(Match(k + 1, s[i + 1..k]))
      case None => None
  }

  function MatchFenced(s: seq<char>, i: nat): (r: Option<Match>)
    requires i < |s|
    ensures r.Some? ==> i < r.value.end <= |s|
    ensures r.Some? ==> Candidate(FencedCode, s, i, r.value.end) && r.value.replacement == Replacement(FencedCode, s, i, r.value.end)
  {
    if !OccursAt(s, i, "```") then None
    else
      match FindClose(s, i + 3, "```", true)
      case Some(k) => Some(Match(k + 3, ""))
      case None => None
  }

  function MatchHeader(s: seq<char>, i: nat): (r: Option<Match>)
    requires i < |s|
    ensures r.Some? ==> i < r.value.end <= |s|
    ensures r.Some? ==> Candidate(Header, s, i, r.value.end) && r.value.replacement == Replacement(Header, s, i, r.value.end)
  {
    var d := RunEnd(s, i, IsHash);
    if i < d <= i + 6 && d < |s| && IsSpace(s[d]) then Some(Match(d + 1, "")) else None
  }

  function MatchListItem(s: seq<char>, i: nat): (r: Option<Match>)
    requires i < |s|
    ensures r.Some? ==> i < r.value.end <= |s|
    ensures r.Some? ==> Candidate(ListItem, s, i, r.value.end) && r.value.replacement == Replacement(ListItem, s, i, r.value.end)
  {
    if !AtLineStart(s, i) then None
    else
      var w := RunEnd(s, i, IsSpace);
      if w + 1 < |s| && IsListMarker(s[w]) && IsSpace(s[w + 1]) then Some(Match(w + 2, "")) else None
  }

  function MatchNumberedItem(s: seq<char>, i: nat): (r: Option<Match>)
    requires i < |s|
    ensures r.Some? ==> i < r.value.end <= |s|
    ensures r.Some? ==> Candidate(NumberedItem, s, i, r.value.end) && r.value.replacement == Replacement(NumberedItem, s, i, r.value.end)
  {
    if !AtLineStart(s, i) then None
    else
      var w := RunEnd(s, i, IsSpace);
      var d := RunEnd(s, w, IsDigit);
      if w < d && d + 1 < |s| && s[d] == '.' && IsSpace(s[d + 1]) then Some(Match(d + 2, "")) else None
  }

  function MatchSpaceRun(s: seq<char>, i: nat): (r: Option<Match>)
    requires i < |s|
    ensures r.Some? ==> i < r.value.end <= |s|
    ensures r.Some? ==> Candidate(SpaceRun, s, i, r.value.end) && r.value.replacement == Replacement(SpaceRun, s, i, r.value.end)
  {
    if IsSpace(s[i]) then Some(Match(RunEnd(s, i, IsSpace), " ")) else None
  }

  function MatchBlankLines(s: seq<char>, i: nat): (r: Option<Match>)
    requires i < |s|
    ensures r.Some? ==> i < r.value.end <= |s|
    ensures r.Some? ==> Candidate(BlankLines, s, i, r.value.end) && r.value.replacement == Replacement(BlankLines, s, i, r.value.end)
  {
    if s[i] != '\n' then None
    else
      match LastNewline(s, i + 1, RunEnd(s, i + 1, IsSpace))
      case Some(t) => Some(Match(t + 1, "\n\n"))
      case None => None
  }

  /** Whenever the pattern can match at `i`, the engine finds a match there, and the one it prefers. */
  lemma MatchAtComplete(p: Pattern, s: seq<char>, i: nat, e: nat)
    requires Candidate(p, s, i, e)
    ensures MatchAt(p, s, i).Some?
    ensures Lazy(p) ==> MatchAt(p, s, i).value.end <= e
    ensures !Lazy(p) ==> MatchAt(p, s, i).value.end >= e
  {
    match p
    case Bold => assert OccursAt(s, e - 2, "**");
    case Italic => PairedComplete(p, '*', s, i, e);
    case InlineCode => PairedComplete(p, '`', s, i, e);
    case FencedCode => assert OccursAt(s, e - 3, "```");
    case Header => HeaderComplete(s, i, e);
    case ListItem => ListItemComplete(s, i, e);
    case NumberedItem => NumberedItemComplete(s, i, e);
    case SpaceRun =>
    case BlankLines => BlankLinesComplete(s, i, e);
  }

  /** The same, as an implication usable where the candidate is only hypothetical. */
  lemma CandidateFound(p: Pattern, s: seq<char>, i: nat, e: nat)
    ensures Candidate(p, s, i, e) ==> MatchAt(p, s, i).Some?
    ensures Candidate(p, s, i, e) && Lazy(p) ==> MatchAt(p, s, i).value.end <= e
  {
    if Candidate(p, s, i, e) {
      MatchAtComplete(p, s, i, e);
    }
  }

  lemma PairedComplete(p: Pattern, m: char, s: seq<char>, i: nat, e: nat)
    requires (p.Italic? && m == '*') || (p.InlineCode? && m == '`')
    requires Candidate(p, s, i, e)
    ensures MatchPaired(p, m, s, i).Some? && MatchPaired(p, m, s, i).value.end <= e
  {
    assert OccursAt(s, e - 1, [m]);
  }

  lemma HeaderComplete(s: seq<char>, i: nat, e: nat)
    requires Candidate(Header, s, i, e)
    ensures MatchHeader(s, i).Some? && MatchHeader(s, i).value.end == e
  {
    var d := RunEnd(s, i, IsHash);
    assert d == e - 1;
  }

  lemma ListItemComplete(s: seq<char>, i: nat, e: nat)
    requires Candidate(ListItem, s, i, e)
    ensures MatchListItem(s, i).Some? && MatchListItem(s, i).value.end == e
  {
    var w := RunEnd(s, i, IsSpace);
    assert w == e - 2;
  }

  lemma NumberedItemComplete(s: seq<char>, i: nat, e: nat)
    requires Candidate(NumberedItem, s, i, e)
    ensures MatchNumberedItem(s, i).Some? && MatchNumberedItem(s, i).value.end == e
  {
    var w := RunEnd(s, i, IsSpace);
    assert w <= e - 3;
    var d := RunEnd(s, w, IsDigit);
    assert IsDigit(s[w]);
    assert d == e - 2;
  }

  lemma BlankLinesComplete(s: seq<char>, i: nat, e: nat)
    requires Candidate(BlankLines, s, i, e)
    ensures MatchBlankLines(s, i).Some? && MatchBlankLines(s, i).value.end >= e
  {
    var w := RunEnd(s, i + 1, IsSpace);
    assert e - 1 < w;
  }

  /** The anchored and bounded patterns have at most one candidate at each position. */
  lemma CandidateUnique(p: Pattern, s: seq<char>, i: nat, e1: nat, e2: nat)
    requires p.Header? || p.ListItem? || p.NumberedItem?
    requires Candidate(p, s, i, e1) && Candidate(p, s, i, e2)
    ensures e1 == e2
  {
    MatchAtComplete(p, s, i, e1);
    MatchAtComplete(p, s, i, e2);
  }

  /** The scan of a global `replace` from position `i`: leftmost matches, resuming after each. */
  function ReplaceFrom(p: Pattern, s: seq<char>, i: nat): (r: seq<char>)
    requires i <= |s|
    ensures |r| <= |s| - i
    decreases |s| - i
  {
    if i == |s| then []
    else
      match MatchAt(p, s, i)
      case Some(m) => m.replacement + ReplaceFrom(p, s, m.end)
      case None => [s[i]] + ReplaceFrom(p, s, i + 1)
  }

  /** `s.replace(pattern, replacement)` with the `g` flag. */
  function Replace(p: Pattern, s: seq<char>): seq<char> {
    ReplaceFrom(p, s, 0)
  }
}

=== FILE: regex_facts.dfy ===
/**
  What a global replace with each pattern does to a whole string: which
  characters it can never delete, what it leaves behind on every line, and
  when it changes nothing at all.
 */
module RegexFacts {
  import opened Wrappers
  import opened JsText
  import opened Regex

  /** Where no match starts, the scan copies the input. */
  lemma ReplaceFromVerbatim(p: Pattern, s: seq<char>, j: nat, t: nat)
    requires j <= t <= |s|
    requires forall k :: j <= k < t ==> MatchAt(p, s, k).None?
    ensures ReplaceFrom(p, s, j) == s[j..t] + ReplaceFrom(p, s, t)
  {
    VerbatimFrom(p, s, j, t, j);
  }

  /** The induction behind it, over the start `i` of a stretch inside `s[lo..t]`. */
  lemma {:induction false} VerbatimFrom(p: Pattern, s: seq<char>, lo: nat, t: nat, i: nat)
    requires lo <= i <= t <= |s|
    requires forall k :: lo <= k < t ==> MatchAt(p, s, k).None?
    ensures ReplaceFrom(p, s, i) == s[i..t] + ReplaceFrom(p, s, t)
    decreases t - i
  {
    if i < t {
      CopyStep(p, s, i);
      VerbatimFrom(p, s, lo, t, i + 1);
      ConsSlice(s, i, t);
      ConcatAssoc([s[i]], s[i + 1..t], ReplaceFrom(p, s, t));
    }
  }

  /** One step of the scan where nothing matches: the character is copied. */
  lemma CopyStep(p: Pattern, s: seq<char>, j: nat)
    requires j < |s| && MatchAt(p, s, j).None?
    ensures ReplaceFrom(p, s, j) == [s[j]] + ReplaceFrom(p, s, j + 1)
  {
  }

  /** One step of the scan where a match starts: its replacement, then the scan from its end. */
  lemma MatchStep(p: Pattern, s: seq<char>, i: nat, m: Match)
    requires i < |s| && MatchAt(p, s, i) == Some(m)
    ensures ReplaceFrom(p, s, i) == m.replacement + ReplaceFrom(p, s, m.end)
  {
  }

  /** The scan from the end of the text yields nothing. */
  lemma ScanAtEnd(p: Pattern, s: seq<char>)
    ensures ReplaceFrom(p, s, |s|) == []
  {
  }

  /** A pattern that matches nowhere leaves the string as it is. */
  lemma NoMatchIdentity(p: Pattern, s: seq<char>)
    requires forall k :: 0 <= k < |s| ==> MatchAt(p, s, k).None?
    ensures Replace(p, s) == s
  {
    ReplaceFromVerbatim(p, s, 0, |s|);
  }

  // ---------------------------------------------------------------------------
  // Characters a pattern never deletes
  // ---------------------------------------------------------------------------

  /**
    The characters a pattern never removes: everything except its markers,
    and, for the patterns built on `\s`, whitespace. Fenced blocks drop their
    contents, so that pattern keeps nothing it matched.
   */
  predicate Keeps(p: Pattern, c: char) {
    match p
    case Bold => c != '*'
    case Italic => c != '*'
    case InlineCode => c != '`'
    case FencedCode => false
    case Header => c != '#' && !IsSpace(c)
    case ListItem => !IsListMarker(c) && !IsSpace(c)
    case NumberedItem => !IsDigit(c) && c != '.' && !IsSpace(c)
    case SpaceRun => !IsSpace(c)
    case BlankLines => !IsSpace(c)
  }

  /** `c` if `p` keeps it, nothing otherwise. */
  function Kept(p: Pattern, c: char): seq<char> {
    if Keeps(p, c) then [c] else []
  }

  /** The characters of `s` that `p` keeps, in order. */
  function Prose(p: Pattern, s: seq<char>): seq<char> {
    if s == [] then [] else Kept(p, s[0]) + Prose(p, s[1..])
  }

  lemma {:induction false} ProseAppend(p: Pattern, a: seq<char>, b: seq<char>)
    ensures Prose(p, a + b) == Prose(p, a) + Prose(p, b)
  {
    if a == [] {
      assert a + b == b;
    } else {
      var k := Kept(p, a[0]);
      assert (a + b)[0] == a[0];
      assert (a + b)[1..] == a[1..] + b;
      ProseAppend(p, a[1..], b);
      assert Prose(p, a + b) == k + (Prose(p, a[1..]) + Prose(p, b));
      assert k + (Prose(p, a[1..]) + Prose(p, b)) == (k + Prose(p, a[1..])) + Prose(p, b);
    }
  }

  lemma {:induction false} ProseNone(p: Pattern, x: seq<char>)
    requires forall k :: 0 <= k < |x| ==> !Keeps(p, x[k])
    ensures Prose(p, x) == []
  {
    if x != [] {
      ProseNone(p, x[1..]);
    }
  }

  /** A single match consumes only characters its replacement gives back or the pattern may delete. */
  lemma MatchKeepsProse(p: Pattern, s: seq<char>, i: nat, e: nat)
    requires Candidate(p, s, i, e)
    ensures Prose(p, s[i..e]) == Prose(p, Replacement(p, s, i, e))
  {
    match p
    case Bold =>
      BoldKeepsProse(s, i, e);
    case Italic =>
      PairKeepsProse(p, s, i, e);
    case InlineCode =>
      PairKeepsProse(p, s, i, e);
    case FencedCode =>
      DeletedKeepsNothing(p, s, i, e);
    case Header =>
      DeletedKeepsNothing(p, s, i, e);
    case ListItem =>
      DeletedKeepsNothing(p, s, i, e);
    case NumberedItem =>
      DeletedKeepsNothing(p, s, i, e);
    case SpaceRun =>
      DeletedKeepsNothing(p, s, i, e);
      ProseNone(p, " ");
    case BlankLines =>
      DeletedKeepsNothing(p, s, i, e);
      ProseNone(p, "\n\n");
  }

  /** The patterns without a capture group match only characters they are allowed to delete. */
  lemma DeletedKeepsNothing(p: Pattern, s: seq<char>, i: nat, e: nat)
    requires Candidate(p, s, i, e) && !(p.Bold? || p.Italic? || p.InlineCode?)
    ensures Prose(p, s[i..e]) == []
  {
    forall k | 0 <= k < e - i
      ensures !Keeps(p, s[i..e][k])
    {
      assert s[i..e][k] == s[i + k];
      DeletedChar(p, s, i, e, i + k);
    }
    ProseNone(p, s[i..e]);
  }

  lemma DeletedChar(p: Pattern, s: seq<char>, i: nat, e: nat, k: nat)
    requires Candidate(p, s, i, e) && !(p.Bold? || p.Italic? || p.InlineCode?)
    requires i <= k < e
    ensures !Keeps(p, s[k])
  {
    match p
    case FencedCode =>
    case Header =>
      if k < e - 1 { assert s[k] == '#'; }
    case ListItem =>
      if k < e - 2 { assert IsSpace(s[k]); }
    case NumberedItem =>
      if k < e - 2 { assert IsSpace(s[k]) || IsDigit(s[k]); }
    case SpaceRun =>
      assert IsSpace(s[k]);
    case BlankLines =>
      if i < k < e - 1 { assert IsSpace(s[k]); }
  }

  lemma BoldKeepsProse(s: seq<char>, i: nat, e: nat)
    requires Candidate(Bold, s, i, e)
    ensures Prose(Bold, s[i..e]) == Prose(Bold, s[i + 2..e - 2])
  {
    var open, close := s[i..i + 2], s[e - 2..e];
    assert open == "**" && close == "**";
    assert s[i..e] == open + s[i + 2..e - 2] + close;
    ProseNone(Bold, open);
    ProseNone(Bold, close);
    ProseAppend(Bold, open + s[i + 2..e - 2], close);
    ProseAppend(Bold, open, s[i + 2..e - 2]);
  }

  lemma PairKeepsProse(p: Pattern, s: seq<char>, i: nat, e: nat)
    requires p.Italic? || p.InlineCode?
    requires Candidate(p, s, i, e)
    ensures Prose(p, s[i..e]) == Prose(p, Replacement(p, s, i, e))
  {
    assert s[i..e] == [s[i]] + s[i + 1..e - 1] + [s[e - 1]];
    ProseNone(p, [s[i]]);
    ProseNone(p, [s[e - 1]]);
    ProseAppend(p, [s[i]] + s[i + 1..e - 1], [s[e - 1]]);
    ProseAppend(p, [s[i]], s[i + 1..e - 1]);
  }

  /** The scan from `i` keeps, in order, every character of `s[i..]` the pattern keeps. */
  lemma {:induction false} ReplaceFromKeepsProse(p: Pattern, s: seq<char>, i: nat)
    requires i <= |s|
    ensures Prose(p, ReplaceFrom(p, s, i)) == Prose(p, s[i..])
    decreases |s| - i
  {
    if i < |s| {
      var e := StepEnd(p, s, i);
      ReplaceFromKeepsProse(p, s, e);
      StepKeepsProse(p, s, i);
    }
  }

  /** Where the scan resumes after position `i`: past the match, or past the copied character. */
  function StepEnd(p: Pattern, s: seq<char>, i: nat): (e: nat)
    requires i < |s|
    ensures i < e <= |s|
  {
    match MatchAt(p, s, i)
    case Some(m) => m.end
    case None => i + 1
  }

  /** If the rest of the scan keeps what it stands for, so does the scan from `i`. */
  lemma StepKeepsProse(p: Pattern, s: seq<char>, i: nat)
    requires i < |s|
    requires Prose(p, ReplaceFrom(p, s, StepEnd(p, s, i))) == Prose(p, s[StepEnd(p, s, i)..])
    ensures Prose(p, ReplaceFrom(p, s, i)) == Prose(p, s[i..])
  {
    var e, piece := ScanStep(p, s, i);
    SplitAt(s, i, e);
    ConcatKeepsProse(p, ReplaceFrom(p, s, i), piece, ReplaceFrom(p, s, e), s[i..], s[i..e], s[e..]);
  }

  /** One step of the scan: a match's replacement, or one copied character, keeps what it stands for. */
  lemma ScanStep(p: Pattern, s: seq<char>, i: nat) returns (e: nat, piece: seq<char>)
    requires i < |s|
    ensures e == StepEnd(p, s, i)
    ensures ReplaceFrom(p, s, i) == piece + ReplaceFrom(p, s, e)
    ensures Prose(p, piece) == Prose(p, s[i..e])
  {
    var mo := MatchAt(p, s, i);
    if mo.Some? {
      e, piece := mo.value.end, mo.value.replacement;
      MatchKeepsProse(p, s, i, e);
    } else {
      e, piece := i + 1, [s[i]];
      assert s[i..e] == [s[i]];
    }
  }

  /** Two pieces that each keep what they stand for, joined, keep what the joined originals do. */
  lemma ConcatKeepsProse(p: Pattern, ab: seq<char>, a: seq<char>, b: seq<char>, ab': seq<char>, a': seq<char>, b': seq<char>)
    requires ab == a + b && ab' == a' + b'
    requires Prose(p, a) == Prose(p, a') && Prose(p, b) == Prose(p, b')
    ensures Prose(p, ab) == Prose(p, ab')
  {
    ProseAppend(p, a, b);
    ProseAppend(p, a', b');
  }

  /** A global replace deletes nothing but the pattern's own markers (and, for the `\s` patterns, whitespace). */
  lemma ReplaceKeepsProse(p: Pattern, s: seq<char>)
    ensures Prose(p, Replace(p, s)) == Prose(p, s)
  {
    ReplaceFromKeepsProse(p, s, 0);
    assert s[0..] == s;
  }

  // ---------------------------------------------------------------------------
  // Paired markers: what `*(.*?)*` and `` `(.*?)` `` leave behind
  // ---------------------------------------------------------------------------

  function Marker(p: Pattern): char
    requires p.Italic? || p.InlineCode?
  {
    if p.Italic? then '*' else '`'
  }

  lemma {:induction false} LineRestShift(a: seq<char>, b: seq<char>, j: nat)
    requires j <= |b|
    ensures LineRest(a + b, |a| + j) == LineRest(b, j)
    decreases |b| - j
  {
    if j < |b| {
      assert (a + b)[|a| + j] == b[j];
      LineRestShift(a, b, j + 1);
    }
  }

  /** A line with no terminator, followed by a line break or the end of the text, is its own rest. */
  lemma {:induction false} LineRestOfLine(x: seq<char>, y: seq<char>)
    requires forall k :: 0 <= k < |x| ==> !IsLineTerminator(x[k])
    requires y == [] || IsLineTerminator(y[0])
    ensures LineRest(x + y, 0) == x
  {
    if x == [] {
      assert x + y == y;
    } else {
      LineRestOfLine(x[1..], y);
      assert (x + y)[1..] == x[1..] + y;
      LineRestShift([x[0]], x[1..] + y, 0);
      assert [x[0]] + (x[1..] + y) == x + y;
    }
  }

  lemma PrependKeepsOnePerLine(a: seq<char>, b: seq<char>, m: char)
    requires m !in a && AtMostOnePerLine(b, m)
    ensures AtMostOnePerLine(a + b, m)
  {
    forall i | 0 <= i < |a + b| && (a + b)[i] == m
      ensures m !in LineRest(a + b, i + 1)
    {
      if i >= |a| {
        var j := i - |a|;
        assert b[j] == m;
        LineRestShift(a, b, j + 1);
      }
    }
  }

  lemma PrependMarker(b: seq<char>, m: char)
    requires AtMostOnePerLine(b, m) && m !in LineRest(b, 0)
    ensures AtMostOnePerLine([m] + b, m)
  {
    forall i | 0 <= i < |[m] + b| && ([m] + b)[i] == m
      ensures m !in LineRest([m] + b, i + 1)
    {
      PrependMarkerAt(b, m, i);
    }
  }

  lemma PrependMarkerAt(b: seq<char>, m: char, i: nat)
    requires AtMostOnePerLine(b, m) && m !in LineRest(b, 0)
    requires i < |b| + 1 && ([m] + b)[i] == m
    ensures m !in LineRest([m] + b, i + 1)
  {
    LineRestShift([m], b, i);
    if i > 0 {
      assert b[i - 1] == m;
    }
  }

  /** Past an unmatched marker the scan copies the rest of the line, which holds no marker. */
  lemma UnmatchedMarker(p: Pattern, s: seq<char>, i: nat)
    requires p.Italic? || p.InlineCode?
    requires i < |s| && s[i] == Marker(p) && MatchAt(p, s, i).None?
    ensures Marker(p) !in LineRest(ReplaceFrom(p, s, i + 1), 0)
  {
    var t := i + 1 + |LineRest(s, i + 1)|;
    LineRestIsLine(s, i + 1);
    forall k | i + 1 <= k < t
      ensures s[k] != Marker(p) && !IsLineTerminator(s[k])
    {
      UnmatchedLineChar(p, s, i, k);
    }
    ScanCopiesLine(p, s, i + 1, t);
  }

  lemma UnmatchedLineChar(p: Pattern, s: seq<char>, i: nat, k: nat)
    requires p.Italic? || p.InlineCode?
    requires i < |s| && s[i] == Marker(p) && MatchAt(p, s, i).None?
    requires i + 1 <= k < i + 1 + |LineRest(s, i + 1)|
    ensures s[k] != Marker(p) && !IsLineTerminator(s[k])
  {
    var line := LineRest(s, i + 1);
    LineRestIsLine(s, i + 1);
    forall t | i + 1 <= t <= k
      ensures !IsLineTerminator(s[t])
    {
      assert s[t] == line[t - i - 1];
    }
    NoCloseOnLine(p, s, i, k);
  }

  /** A marker with no match at it has no partner further along its line. */
  lemma NoCloseOnLine(p: Pattern, s: seq<char>, i: nat, k: nat)
    requires p.Italic? || p.InlineCode?
    requires i < k < |s| && s[i] == Marker(p) && MatchAt(p, s, i).None?
    requires forall t :: i + 1 <= t <= k ==> !IsLineTerminator(s[t])
    ensures s[k] != Marker(p)
  {
    MarkerCloses(p, s, i, k + 1);
    CandidateFound(p, s, i, k + 1);
  }

  /** A second marker on the same line as the first closes a candidate match. */
  lemma MarkerCloses(p: Pattern, s: seq<char>, i: nat, e: nat)
    requires p.Italic? || p.InlineCode?
    requires i + 2 <= e <= |s| && s[i] == Marker(p)
    requires forall t :: i + 1 <= t < e ==> !IsLineTerminator(s[t])
    ensures s[e - 1] == Marker(p) ==> Candidate(p, s, i, e)
  {
  }

  /** Where the pattern's marker is absent up to a line break, the scan copies up to and including that break. */
  lemma ScanCopiesLine(p: Pattern, s: seq<char>, j: nat, t: nat)
    requires p.Italic? || p.InlineCode?
    requires j <= t <= |s|
    requires forall k :: j <= k < t ==> s[k] != Marker(p) && !IsLineTerminator(s[k])
    requires t == |s| || IsLineTerminator(s[t])
    ensures LineRest(ReplaceFrom(p, s, j), 0) == s[j..t]
  {
    forall k | j <= k < t ensures MatchAt(p, s, k).None? {
      assert s[k] != Marker(p);
    }
    ReplaceFromVerbatim(p, s, j, t);
    var line := s[j..t];
    if t < |s| {
      assert MatchAt(p, s, t).None? by { assert s[t] != Marker(p); }
      var rest := [s[t]] + ReplaceFrom(p, s, t + 1);
      assert ReplaceFrom(p, s, t) == rest;
      LineRestOfLine(line, rest);
    } else {
      assert ReplaceFrom(p, s, j) == line + [];
      LineRestOfLine(line, []);
    }
  }

  /** The text a match gives back holds no marker: the lazy group stops at the first one. */
  lemma MatchedTextHasNoMarker(p: Pattern, s: seq<char>, i: nat)
    requires p.Italic? || p.InlineCode?
    requires i < |s| && MatchAt(p, s, i).Some?
    ensures Marker(p) !in MatchAt(p, s, i).value.replacement
  {
    var e := MatchAt(p, s, i).value.end;
    var mid := s[i + 1..e - 1];
    forall k | 0 <= k < |mid|
      ensures mid[k] != Marker(p)
    {
      assert mid[k] == s[i + k + 1];
      MarkerCloses(p, s, i, i + k + 2);
      CandidateFound(p, s, i, i + k + 2);
    }
  }

  lemma {:induction false} ReplaceFromOnePerLine(p: Pattern, s: seq<char>, i: nat)
    requires p.Italic? || p.InlineCode?
    requires i <= |s|
    ensures AtMostOnePerLine(ReplaceFrom(p, s, i), Marker(p))
    decreases |s| - i
  {
    var m := Marker(p);
    if i < |s| {
      var mo := MatchAt(p, s, i);
      if mo.Some? {
        var rest := ReplaceFrom(p, s, mo.value.end);
        assert ReplaceFrom(p, s, i) == mo.value.replacement + rest;
        ReplaceFromOnePerLine(p, s, mo.value.end);
        MatchedTextHasNoMarker(p, s, i);
        PrependKeepsOnePerLine(mo.value.replacement, rest, m);
      } else {
        var rest := ReplaceFrom(p, s, i + 1);
        assert ReplaceFrom(p, s, i) == [s[i]] + rest;
        ReplaceFromOnePerLine(p, s, i + 1);
        if s[i] == m {
          UnmatchedMarker(p, s, i);
          PrependMarker(rest, m);
        } else {
          PrependKeepsOnePerLine([s[i]], rest, m);
        }
      }
    }
  }

  /** After `*(.*?)*` (or `` `(.*?)` ``) every surviving marker is the last one on its line. */
  lemma PairedMarkersLeaveOnePerLine(p: Pattern, s: seq<char>)
    requires p.Italic? || p.InlineCode?
    ensures AtMostOnePerLine(Replace(p, s), Marker(p))
  {
    ReplaceFromOnePerLine(p, s, 0);
  }

  /** With at most one backtick per line, no backtick is followed by another. */
  lemma NoDoubleBacktick(s: seq<char>, k: nat)
    requires AtMostOnePerLine(s, '`')
    requires k + 1 < |s| && s[k] == '`'
    ensures s[k + 1] != '`'
  {
    if !IsLineTerminator(s[k + 1]) {
      assert LineRest(s, k + 1)[0] == s[k + 1];
    }
  }

  /** Text with at most one backtick per line holds no fenced block: the fence pattern finds nothing. */
  lemma FencedCodeFindsNothing(s: seq<char>)
    requires AtMostOnePerLine(s, '`')
    ensures Replace(FencedCode, s) == s
  {
    forall k | 0 <= k < |s|
      ensures MatchAt(FencedCode, s, k).None?
    {
      if k + 3 <= |s| {
        if s[k] == '`' {
          NoDoubleBacktick(s, k);
        }
        assert s[k..k + 3][0] == s[k] && s[k..k + 3][1] == s[k + 1];
      }
    }
    NoMatchIdentity(FencedCode, s);
  }

  // ---------------------------------------------------------------------------
  // Whitespace
  // ---------------------------------------------------------------------------

  lemma {:induction false} ReplaceFromSingleSpaced(s: seq<char>, i: nat)
    requires i <= |s|
    ensures SingleSpaced(ReplaceFrom(SpaceRun, s, i))
    ensures ReplaceFrom(SpaceRun, s, i) != [] && IsSpace(ReplaceFrom(SpaceRun, s, i)[0]) ==> IsSpace(s[i])
    decreases |s| - i
  {
    if i < |s| {
      match MatchAt(SpaceRun, s, i)
      case Some(m) =>
        ReplaceFromSingleSpaced(s, m.end);
        var rest := ReplaceFrom(SpaceRun, s, m.end);
        assert m.end == RunEnd(s, i, IsSpace);
        if m.end < |s| {
          assert rest == [s[m.end]] + ReplaceFrom(SpaceRun, s, m.end + 1);
        }
        assert (" " + rest)[1..] == rest;
      case None =>
        ReplaceFromSingleSpaced(s, i + 1);
        assert ([s[i]] + ReplaceFrom(SpaceRun, s, i + 1))[1..] == ReplaceFrom(SpaceRun, s, i + 1);
    }
  }

  /** After `.replace(/\s+/g, ' ')` every whitespace character is a lone ASCII space. */
  lemma SpaceRunLeavesSingleSpaces(s: seq<char>)
    ensures SingleSpaced(Replace(SpaceRun, s))
  {
    ReplaceFromSingleSpaced(s, 0);
  }

  /** On single-spaced text the whitespace pattern replaces each space by itself. */
  lemma {:induction false} SingleSpacedFixed(s: seq<char>, i: nat)
    requires SingleSpaced(s) && i <= |s|
    ensures ReplaceFrom(SpaceRun, s, i) == s[i..]
    decreases |s| - i
  {
    if i < |s| {
      SingleSpacedFixed(s, i + 1);
      if IsSpace(s[i]) {
        assert RunEnd(s, i, IsSpace) == i + 1 by {
          if i + 1 < |s| { assert !IsSpace(s[i + 1]); }
        }
      }
      assert s[i..] == [s[i]] + s[i + 1..];
    }
  }

  /**
    What line 45 does, character by character: a whitespace character that
    opens a run becomes one space, one that continues a run disappears, and
    every other character is kept.
   */
  function SqueezeAt(s: seq<char>, k: nat): seq<char>
    requires k < |s|
  {
    if !IsSpace(s[k]) then [s[k]]
    else if k > 0 && IsSpace(s[k - 1]) then []
    else [' ']
  }

  function SqueezeFrom(s: seq<char>, i: nat): seq<char>
    requires i <= |s|
    decreases |s| - i
  {
    if i == |s| then [] else SqueezeAt(s, i) + SqueezeFrom(s, i + 1)
  }

  /** Every whitespace run folded to one space. */
  function Squeeze(s: seq<char>): seq<char> {
    SqueezeFrom(s, 0)
  }

  /** Past the first character of a whitespace run, the rest of the run adds nothing. */
  lemma {:induction false} SqueezeSkipsRun(s: seq<char>, lo: nat, i: nat, e: nat)
    requires lo < i <= e <= |s|
    requires forall t :: lo <= t < e ==> IsSpace(s[t])
    ensures SqueezeFrom(s, i) == SqueezeFrom(s, e)
    decreases e - i
  {
    if i < e {
      assert IsSpace(s[i - 1]) && IsSpace(s[i]);
      SqueezeSkipsRun(s, lo, i + 1, e);
    }
  }

  /** Started anywhere but inside a whitespace run, the scan of line 45 yields the reference. */
  lemma {:induction false} SpaceRunFromIsSqueeze(s: seq<char>, i: nat)
    requires i <= |s|
    requires i == 0 || i == |s| || !IsSpace(s[i - 1]) || !IsSpace(s[i])
    ensures ReplaceFrom(SpaceRun, s, i) == SqueezeFrom(s, i)
    decreases |s| - i
  {
    if i == |s| {
      ScanAtEnd(SpaceRun, s);
    } else if IsSpace(s[i]) {
      var e := RunEnd(s, i, IsSpace);
      assert e > i;
      MatchStep(SpaceRun, s, i, Match(e, " "));
      SpaceRunFromIsSqueeze(s, e);
      SqueezeSkipsRun(s, i, i + 1, e);
    } else {
      CopyStep(SpaceRun, s, i);
      SpaceRunFromIsSqueeze(s, i + 1);
    }
  }

  /** `.replace(/\s+/g, ' ')` replaces each maximal whitespace run by exactly one space and keeps everything else. */
  lemma SpaceRunIsSqueeze(s: seq<char>)
    ensures Replace(SpaceRun, s) == Squeeze(s)
  {
    SpaceRunFromIsSqueeze(s, 0);
  }

  /** Text without a line feed has no blank lines to fold. */
  lemma BlankLinesFindNothing(s: seq<char>)
    requires '\n' !in s
    ensures Replace(BlankLines, s) == s
  {
    forall k | 0 <= k < |s| ensures MatchAt(BlankLines, s, k).None? {
      assert s[k] != '\n';
    }
    NoMatchIdentity(BlankLines, s);
  }
}

=== FILE: session.dfy ===
/**
  The input box wired to the app (App.tsx:60-64 and ChatBox.tsx:89 pass `handleSend` and
  `isLoading` to the box): a screen is the conversation plus the box's text,
  and events are the user's actions and the backend call settling.
 */
module Session {
  import opened Wrappers
  import opened JsText
  import opened Messages
  import opened Chat
  import opened InputBox

  datatype Event =
    | Typed(value: seq<char>)
    | KeyDown(key: seq<char>, shift: bool, now: int)
    | ClickSend(now: int)
    | Settled(result: GatewayResult, now: int)

  datatype Screen = Screen(chat: Chat.State, input: seq<char>)

  function Start(): (sc: Screen)
    ensures sc.chat == Initial() && sc.input == []
  {
    Screen(Initial(), [])
  }

  /**
    What the input box does with an event. The textarea is disabled while
    loading, so it takes neither typing nor key presses then; the button
    stays clickable.
   */
  function Handled(sc: Screen, ev: Event): (r: Outcome)
    ensures sc.chat.isLoading ==> r.sent.None?
    ensures r.sent.Some? ==> Sendable(r.sent.value) && r.input == []
    ensures r.sent.Some? ==> Trim(sc.input) == r.sent.value
    ensures ev.Settled? ==> r == Outcome(sc.input, None)
    ensures ev.Typed? ==> r == Outcome(TypeText(sc.input, ev.value, sc.chat.isLoading), None)
    ensures !sc.chat.isLoading && (ev.ClickSend? || (ev.KeyDown? && ev.key == "Enter" && !ev.shift)) ==>
      r == HandleSubmit(sc.input, false)
    ensures ev.KeyDown? && !(ev.key == "Enter" && !ev.shift) ==> r == Outcome(sc.input, None)
  {
    match ev
    case Typed(value) => Outcome(TypeText(sc.input, value, sc.chat.isLoading), None)
    case KeyDown(key, shift, _) =>
      if sc.chat.isLoading then Outcome(sc.input, None)
      else HandleKeyDown(key, shift, sc.input, sc.chat.isLoading).outcome
    case ClickSend(_) => Click(sc.input, sc.chat.isLoading)
    case Settled(_, _) => Outcome(sc.input, None)
  }

  /**
    One event. A send starts `handleSend` (user message, loading on); the
    call settling finishes it (bot message, loading off). A settlement with
    no call pending changes nothing.
   */
  function Step(sc: Screen, ev: Event): (r: Screen)
    requires Valid(sc.chat)
    ensures Valid(r.chat)
    ensures |sc.chat.messages| <= |r.chat.messages| <= |sc.chat.messages| + 1
    ensures r.chat.messages[..|sc.chat.messages|] == sc.chat.messages
    ensures Handled(sc, ev).sent.Some? ==>
      && |r.chat.messages| == |sc.chat.messages| + 1
      && r.chat.messages[|sc.chat.messages|].sender == User
      && r.chat.messages[|sc.chat.messages|].text == Handled(sc, ev).sent.value
      && r.chat.isLoading && r.input == []
    ensures Handled(sc, ev).sent.None? && ev.Settled? && sc.chat.isLoading ==>
      && |r.chat.messages| == |sc.chat.messages| + 1
      && r.chat.messages[|sc.chat.messages|].sender == Bot
      && r.chat.messages[|sc.chat.messages|].text == ReplyText(ev.result)
      && !r.chat.isLoading && r.input == sc.input
    ensures Handled(sc, ev).sent.None? && !(ev.Settled? && sc.chat.isLoading) ==>
      r.chat == sc.chat && r.input == Handled(sc, ev).input
  {
    var o := Handled(sc, ev);
    if o.sent.Some? then
      Screen(BeginSend(sc.chat, o.sent.value, ev.now).1, o.input)
    else if ev.Settled? && sc.chat.isLoading then
      Screen(FinishSend(sc.chat, ev.result, ev.now).1, sc.input)
    else
      Screen(sc.chat, o.input)
  }

  /**
    What holds on every screen the user can reach: a reply is pending
    exactly when the last message is the user's, messages alternate user
    then bot, every user message is non-empty trimmed text, and ids are
    fresh.
   */
  ghost predicate Inv(sc: Screen) {
    && Valid(sc.chat)
    && (sc.chat.isLoading <==> |sc.chat.messages| % 2 == 1)
    && Alternates(sc.chat.messages)
    && UserTextsSendable(sc.chat.messages)
  }

  /** Even positions hold the user's messages, odd ones the bot's. */
  predicate Alternates(ms: seq<Message>) {
    forall i :: 0 <= i < |ms| ==> (ms[i].sender == User <==> i % 2 == 0)
  }

  /** Text the input box would send: non-empty, with nothing left to trim. */
  predicate Sendable(text: seq<char>) {
    text != [] && Trimmed(text)
  }

  predicate UserTextsSendable(ms: seq<Message>) {
    forall i :: 0 <= i < |ms| && ms[i].sender == User ==> Sendable(ms[i].text)
  }

  lemma StartInv()
    ensures Inv(Start())
  {
  }

  /** A prefix of a prefix is a prefix. */
  lemma PrefixOfPrefix(a: seq<Message>, b: seq<Message>, c: seq<Message>)
    requires |a| <= |b| <= |c| && b[..|a|] == a && c[..|b|] == b
    ensures c[..|a|] == a
  {
    assert c[..|b|][..|a|] == c[..|a|];
  }

  /** A message appended after `ms` leaves the earlier ones where they were. */
  lemma PrefixKept(ms: seq<Message>, ms': seq<Message>, i: nat)
    requires |ms'| == |ms| + 1 && ms'[..|ms|] == ms && i < |ms|
    ensures ms'[i] == ms[i]
  {
    assert ms'[..|ms|][i] == ms'[i];
  }

  /** Starting a send from an idle screen adds the user's turn. */
  lemma BeginKeepsInv(sc: Screen, text: seq<char>, now: int, input: seq<char>)
    requires Inv(sc) && !sc.chat.isLoading
    requires Sendable(text)
    ensures Inv(Screen(BeginSend(sc.chat, text, now).1, input))
  {
    var ms := sc.chat.messages;
    var st' := BeginSend(sc.chat, text, now).1;
    var ms' := st'.messages;
    forall i | 0 <= i < |ms'|
      ensures (ms'[i].sender == User <==> i % 2 == 0)
      ensures ms'[i].sender == User ==> Sendable(ms'[i].text)
    {
      if i < |ms| { PrefixKept(ms, ms', i); } else { assert i == |ms|; }
    }
  }

  /** The pending call settling adds the bot's turn. */
  lemma FinishKeepsInv(sc: Screen, result: GatewayResult, now: int)
    requires Inv(sc) && sc.chat.isLoading
    ensures Inv(Screen(FinishSend(sc.chat, result, now).1, sc.input))
  {
    var ms := sc.chat.messages;
    var ms' := FinishSend(sc.chat, result, now).1.messages;
    forall i | 0 <= i < |ms'|
      ensures (ms'[i].sender == User <==> i % 2 == 0)
      ensures ms'[i].sender == User ==> Sendable(ms'[i].text)
    {
      if i < |ms| { PrefixKept(ms, ms', i); } else { assert i == |ms|; }
    }
  }

  lemma {:induction false} StepInv(sc: Screen, ev: Event)
    requires Inv(sc)
    ensures Inv(Step(sc, ev))
  {
    var o := Handled(sc, ev);
    if o.sent.Some? {
      BeginKeepsInv(sc, o.sent.value, ev.now, o.input);
    } else if ev.Settled? && sc.chat.isLoading {
      FinishKeepsInv(sc, ev.result, ev.now);
    }
  }

  /** The screen after a sequence of events. */
  function Run(sc: Screen, evs: seq<Event>): (r: Screen)
    requires Inv(sc)
    ensures Inv(r)
    ensures |sc.chat.messages| <= |r.chat.messages|
    ensures r.chat.messages[..|sc.chat.messages|] == sc.chat.messages
    decreases |evs|
  {
    if evs == [] then sc
    else
      StepInv(sc, evs[0]);
      var next := Step(sc, evs[0]);
      var r := Run(next, evs[1..]);
      PrefixOfPrefix(sc.chat.messages, next.chat.messages, r.chat.messages);
      r
  }

  /** On any reachable screen, a send is made only when no reply is pending. */
  lemma {:induction false} NoSendWhilePending(evs: seq<Event>, ev: Event)
    ensures var sc := Run(Start(), evs);
      Handled(sc, ev).sent.Some? ==> !sc.chat.isLoading && |sc.chat.messages| % 2 == 0
  {
    StartInv();
    SendNeedsIdle(Run(Start(), evs), ev);
  }

  /** On a screen that keeps the invariant, a send is made only when no reply is pending. */
  lemma SendNeedsIdle(sc: Screen, ev: Event)
    requires Inv(sc)
    ensures Handled(sc, ev).sent.Some? ==> !sc.chat.isLoading && |sc.chat.messages| % 2 == 0
  {
    if sc.chat.isLoading {
      assert Handled(sc, ev).sent.None?;
    }
  }

  /** On a reachable screen with no reply pending, every user message is followed by the bot's reply. */
  lemma {:induction false} IdleMeansAnswered(evs: seq<Event>)
    ensures var ms := Run(Start(), evs).chat.messages;
      !Run(Start(), evs).chat.isLoading ==>
        forall i :: 0 <= i < |ms| && ms[i].sender == User ==> i + 1 < |ms| && ms[i + 1].sender == Bot
  {
    StartInv();
    var sc := Run(Start(), evs);
    var ms := sc.chat.messages;
    if !sc.chat.isLoading {
      forall i | 0 <= i < |ms| && ms[i].sender == User
        ensures i + 1 < |ms| && ms[i + 1].sender == Bot
      {
        assert i % 2 == 0;
      }
    }
  }
}

=== FILE: wrappers.dfy ===
/** An optional value used by the model. */
module Wrappers {

  /** A value that may be absent: a regex that does not match, a send that did not happen. */
  datatype Option<+T> = None | Some(value: T)
}
